=== FILE: README.md ===
# Hospital record keeper — data layer in Dafny

This project models the data layer of the hospital management program in
`HMS/test.py`, a single-file Tk application. The program keeps three
collections: patients, doctors and appointments. Each patient embeds its
own reports, bills and prescriptions. The model covers:

- the five record kinds and their `to_dict` / `from_dict` pair;
- the migration of legacy "description amount" bill strings into bill records;
- load/save normalisation of whole collections;
- id generation (`get_next_id`);
- logging in and searching for a patient;
- the edits a doctor makes to the store: adding, paying and deleting bills,
  adding and deleting prescriptions, changing a patient's password, adding a
  patient and scheduling an appointment.

The program holds each collection in a pandas DataFrame. The model uses a
`seq` of typed records instead, and each operation is a pure function. It
takes the collections it reads and returns the collections it writes, or an
error value for each way the program refuses the input. Most refusals are a
message box in the program; the missing-patient refusal of the bill and
prescription edits is an uncaught exception there (see "Left out"). Because `from_dict(to_dict(p)) == p` is proved for every record
kind, login and search return the stored record itself. The program instead
rebuilds the record from its row. Python's text and number primitives are
modelled as the program uses them. These are `strip()` with Python's full
whitespace set, ASCII `lower()`, substring `in` and `str.contains`,
`rsplit(' ', 1)`, `replace('.', '', 1)`, `isdigit()`, `str(int)`, `int(text)`
and `float(text)`.

Module layout, one file each:

- `Wrappers` — `Option` and `Result`.
- `Text` — strip, lower, containment, rsplit, replace.
- `Numbers` — digits, `str(int)`, `int()` and `float()`.
- `Records` — the record datatypes and the JSON-like `Value`.
- `Ids` — `get_next_id` and id uniqueness.
- `Lists` — first match and filtering, which stand in for DataFrame masks.
- `Legacy` — the migration of legacy bill strings.
- `Codec` — `to_dict` / `from_dict`, and load and save of collections.
- `Access` — login and patient search.
- `Billing` — bill and prescription edits.
- `Admin` — password change, new patient and new appointment.

One consequence of the code is stated as a lemma. Login strips the typed
password (line 226). `add_patient` and `change_patient_password` store the
password exactly as typed (lines 802 and 751). So a patient whose password
starts with whitespace can never log in with it
(`Admin.PaddedPasswordLocksOut`). With a password that has no whitespace at
either end, the patient can log in (`Admin.AddedPatientLogsIn`,
`Admin.ChangedPasswordLogsIn`).

## Model

| member | source | states |
|---|---|---|
| Text.Strip | HMS/test.py:225-226 | the result has no whitespace at either end and is no longer than the input |
| Text.StripDecomposes | HMS/test.py:225-226 | the stripped text is a contiguous slice of the input with only whitespace before and after it |
| Text.StripUnique | HMS/test.py:82 | any stripped core surrounded by whitespace strips to exactly that core, which pins down `strip()` completely |
| Text.StripAllSpace | HMS/test.py:487-488 | text made only of whitespace strips to the empty text, so such a search query counts as empty |
| Text.StripEmpty | HMS/test.py:487-488 | `strip()` gives the empty text exactly when the input is all whitespace, in both directions |
| Text.StripOfStripped | HMS/test.py:225-226 | text without whitespace at either end is unchanged by `strip()` |
| Text.StripKeepsChars | HMS/test.py:225 | every character of the stripped text occurs in the input |
| Text.StripShortens | HMS/test.py:226 | text starting with whitespace gets strictly shorter when stripped |
| Text.StripIdempotent | HMS/test.py:487 | stripping twice equals stripping once |
| Text.Lower | HMS/test.py:487 | same length, and each character is that input character with A–Z folded to a–z |
| Text.Contains | HMS/test.py:492 | true exactly when the query occurs at some position of the text |
| Text.ContainsItself | HMS/test.py:492 | every text contains itself |
| Text.RSplitOnce | HMS/test.py:80 | one part (the input) exactly when the separator is absent; otherwise the two parts joined by the separator give back the input, and the second part has no separator |
| Text.RemoveFirst | HMS/test.py:81 | unchanged when the character is absent; otherwise the text with exactly its first occurrence of the character cut out, the rest in order |
| Numbers.IntToString | HMS/test.py:492 | the text is non-empty; digits whose value is the number, with a leading '-' exactly for negatives, and no leading zero except in "0" itself |
| Numbers.IntTextIsCanonical | HMS/test.py:492 | the text of an id is unchanged by the strip and lower-casing applied to a search query |
| Numbers.ParseIntOfDigits | HMS/test.py:225 | a non-empty run of digits parses to its decimal value |
| Numbers.ParseIntRoundTrip | HMS/test.py:225 | the text of any integer, with any whitespace around it, parses back to that integer |
| Numbers.ParseIntNeedsDigit | HMS/test.py:750 | text containing no digit is rejected |
| Numbers.ParseIntSound | HMS/test.py:225 | whatever `int()` accepts is whitespace, an optional sign, a digit run and whitespace, and the result is the signed value of the digits |
| Numbers.ParseIntOfLiteral | HMS/test.py:225 | conversely, every such text is accepted with that value, so with `ParseIntSound` the accepted texts and their values are characterised exactly |
| Numbers.AmountTokenHasNoSpace | HMS/test.py:80-81 | a token that passes the amount test contains no space |
| Numbers.DecimalValue | HMS/test.py:82 | an amount token's value is non-negative, and equals its digit value when it has no dot |
| Numbers.DecimalValueOfNat | HMS/test.py:82 | the decimal text of a natural number passes the amount test and reads back as that number |
| Numbers.DottedDigitsAreAmount | HMS/test.py:81 | removing the dot from digits, a dot and digits leaves the two digit runs joined, so the token passes the amount test |
| Numbers.DecimalValueOfParts | HMS/test.py:81-82 | digits, a dot and digits pass the amount test, with value whole part plus fraction divided by a power of ten |
| Numbers.ParseFloatNeedsDigit | HMS/test.py:557 | amount text containing no digit is rejected |
| Numbers.AmountTokenIsPlain | HMS/test.py:81 | an amount token is non-empty and made only of digits and dots |
| Numbers.ParseFloatSound | HMS/test.py:557 | whatever `float()` accepts is whitespace, an optional sign, an amount token and whitespace, and the result is the signed value of the token |
| Numbers.ParseFloatOfLiteral | HMS/test.py:557 | conversely, every such text is accepted with the token's signed value, so the amount `add_new_bill` stores is the typed number |
| Ids.MaxId | HMS/test.py:175 | the maximum is one of the ids and no id exceeds it |
| Ids.NextId | HMS/test.py:171-175 | 1 for an empty collection; otherwise one more than some existing id and greater than every id |
| Ids.NextIdIsFresh | HMS/test.py:171-175 | the generated id is not in use, and appending it keeps the ids distinct |
| Ids.NextIdExamples | HMS/test.py:173-175 | an empty collection gives 1; ids 3, 7, 2 give 8 |
| Lists.FindFirst | HMS/test.py:233 | the index returned is the first match; none is returned exactly when nothing matches |
| Lists.Filter | HMS/test.py:598 | exactly the elements that pass are kept, and the result is no longer than the input |
| Lists.FilterAppend | HMS/test.py:598 | filtering a concatenation is concatenating the filtered parts, so relative order is kept |
| Lists.FilterKeepsAll | HMS/test.py:598 | a list whose elements all pass is unchanged, and filtering is idempotent |
| Lists.FilterKeepsDistinct | HMS/test.py:598 | filtering never makes two keys collide |
| Records.DateOrToday | HMS/test.py:558 | the date typed in the form when there is one, otherwise today's date |
| Legacy.ParseLegacyEntry | HMS/test.py:80-84 | the amount is never negative; an entry without a space is its own description with amount 0; otherwise the description is stripped or is the whole entry |
| Legacy.LegacyEntryWithAmount | HMS/test.py:80-82 | "description amount" reads back as the stripped description and the amount's value |
| Legacy.LegacyEntryWithoutAmount | HMS/test.py:83-84 | when no space is followed by an amount token, the whole entry is the description and the amount is 0 |
| Legacy.ExampleAmount | HMS/test.py:81-82 | "1500.0" passes the amount test and is worth 1500 |
| Legacy.ExampleDescription | HMS/test.py:82 | "Consultation Fee" is unchanged by stripping |
| Legacy.LegacyEntryExampleWithAmount | HMS/test.py:80-82 | "Consultation Fee 1500.0" becomes description "Consultation Fee" with amount 1500 |
| Legacy.LegacyEntryExampleWithoutAmount | HMS/test.py:83-84 | "Checkup" becomes description "Checkup" with amount 0 |
| Legacy.LegacyBill | HMS/test.py:85 | the bill has the given id, date 2025-01-01, status Pending and the parsed description and amount |
| Legacy.MigrateFrom | HMS/test.py:78-85 | one bill per entry, in order, numbered consecutively from the first id |
| Legacy.MigrateLegacyBills | HMS/test.py:76-88 | one bill per entry, in order, numbered from 1, dated 2025-01-01, Pending, with the parsed description and amount |
| Legacy.MigratedIds | HMS/test.py:78-88 | migrated bill ids are distinct, and the next bill id after migration is one more than the number of entries |
| Codec.GetListOr | HMS/test.py:74 | a missing list field reads as the empty list; a present list field reads as its items; a present field that is not a list is refused |
| Codec.TextsFromValues | HMS/test.py:96 | succeeds exactly when every element is text, and then gives those texts in order |
| Codec.TextsRoundTrip | HMS/test.py:67 | saved report texts read back as the same texts |
| Codec.DecodeAll | HMS/test.py:90-92 | succeeds exactly when every element is a record the decoder accepts, and then gives the decoded records in order |
| Codec.DecodeEncodeAll | HMS/test.py:68-69 | a list whose elements each survive encode-then-decode survives as a whole |
| Codec.BillToDict | HMS/test.py:25-29 | the saved record has exactly the five bill keys |
| Codec.BillFromDict | HMS/test.py:31-33 | an unknown key is rejected, naming exactly the unknown keys; the record is accepted exactly when its keys are bill keys and the four required fields are present with their kinds (status, if present, is text); the bill then carries those field values, with status Pending when absent |
| Codec.BillRoundTrip | HMS/test.py:25-33 | reading a saved bill gives the same bill |
| Codec.PrescriptionToDict | HMS/test.py:43-47 | the saved record has exactly the five prescription keys |
| Codec.PrescriptionFromDict | HMS/test.py:49-51 | an unknown key is rejected, naming exactly the unknown keys; the record is accepted exactly when its keys are prescription keys and the four required fields are present with their kinds (the image, if present, is text); the prescription then carries those values, with an empty image when absent |
| Codec.PrescriptionRoundTrip | HMS/test.py:43-51 | reading a saved prescription gives the same prescription |
| Codec.ReadBills | HMS/test.py:74-90 | a legacy list (first element text) is accepted exactly when all its elements are text, and is then migrated; any other list is accepted exactly when every element is a record the bill reader accepts, and is read element by element |
| Codec.PatientToDict | HMS/test.py:64-70 | the saved record has exactly the eight patient keys |
| Codec.PatientFromDict | HMS/test.py:72-97 | accepted exactly when the five required fields have their kinds and each list field present reads; the patient then carries those values, the bills from migration or the bill reader according to whether the stored list is legacy, and missing lists read as empty; other keys are ignored |
| Codec.PatientDefaults | HMS/test.py:90-97 | a record with the five required fields and no reports, bills or prescriptions field reads as that patient with all three lists empty |
| Codec.LegacyBillsMigrate | HMS/test.py:74-97 | a non-empty list of bill texts never makes a readable record unreadable: the record reads as it would without bills, with the migrated bills |
| Codec.PatientRoundTrip | HMS/test.py:64-97 | a saved patient never has a legacy bill list, and reading it back gives the same patient |
| Codec.PatientNormalForm | HMS/test.py:145-146 | after one read, saving and reading again changes nothing, and the legacy branch is not taken again |
| Codec.DoctorToDict | HMS/test.py:106-107 | the saved record has exactly the four doctor keys |
| Codec.DoctorFromDict | HMS/test.py:109-111 | accepted exactly when the four fields are present with their kinds, and the doctor then carries their values; other keys are ignored |
| Codec.DoctorRoundTrip | HMS/test.py:106-111 | reading a saved doctor gives the same doctor |
| Codec.AppointmentToDict | HMS/test.py:121-122 | the saved record has exactly the five appointment keys |
| Codec.AppointmentFromDict | HMS/test.py:124-126 | accepted exactly when the five fields are present with their kinds, and the appointment then carries their values; other keys are ignored |
| Codec.AppointmentRoundTrip | HMS/test.py:121-126 | reading a saved appointment gives the same appointment |
| Codec.LoadPatients | HMS/test.py:145 | the load succeeds exactly when every stored element is a record the patient reader accepts, and then the i-th patient is the reading of the i-th record |
| Codec.SavePatients | HMS/test.py:146 | one saved record per patient, in order, each the patient's `to_dict` form |
| Codec.PatientsSaveLoad | HMS/test.py:139-167 | saving then loading gives back the patients, and a loaded collection is a fixed point of save-then-load; this holds for the values `json.dump` accepts, which excludes the NumPy ids of `Billing.AddBill` and `Billing.AddPrescription` (see "Left out") |
| Codec.LoadDoctors | HMS/test.py:155 | the load succeeds exactly when every stored element is a record the doctor reader accepts, and then the i-th doctor is the reading of the i-th record |
| Codec.SaveDoctors | HMS/test.py:156 | one saved record per doctor, in order, each the doctor's `to_dict` form |
| Codec.DoctorsSaveLoad | HMS/test.py:148-167 | saving then loading gives back the doctors |
| Codec.LoadAppointments | HMS/test.py:155 | the load succeeds exactly when every stored element is a record the appointment reader accepts, and then the i-th appointment is the reading of the i-th record |
| Codec.SaveAppointments | HMS/test.py:156 | one saved record per appointment, in order, each the appointment's `to_dict` form |
| Codec.AppointmentsSaveLoad | HMS/test.py:148-167 | saving then loading gives back the appointments |
| Access.PatientLogin | HMS/test.py:230-234 | succeeds exactly when some patient has both the id and the password, and then returns the first such patient; otherwise invalid credentials |
| Access.DoctorLogin | HMS/test.py:235-239 | succeeds exactly when some doctor has both the id and the password, and then returns the first such doctor; otherwise invalid credentials |
| Access.Login | HMS/test.py:223-239 | refused exactly when the stripped id text is not an integer; otherwise the role's lookup with that id and the stripped password |
| Access.SearchQuery | HMS/test.py:487 | the matched query has no whitespace at its ends, no upper-case ASCII letter, is no longer than the typed text, and is empty exactly when the typed text is all whitespace |
| Access.SearchQueryOf | HMS/test.py:487 | the matched query is `text.strip().lower()`: any stripped core with whitespace around it gives that core lower-cased |
| Access.SearchQueryIdempotent | HMS/test.py:487 | typing the matched query again gives the same matched query |
| Access.Matches | HMS/test.py:492 | a patient matches exactly when the query occurs at some position of its id text or of its lower-cased name; the empty query matches every patient |
| Access.SearchPatient | HMS/test.py:486-498 | an empty query is refused; not found exactly when no patient's id text or lower-cased name contains the query; otherwise the first matching patient |
| Access.SearchFindsOwnId | HMS/test.py:487-492 | searching for a stored patient's id text always finds a patient |
| Billing.AppendBill | HMS/test.py:552-560 | the old bills stay in place; the new bill is Pending and carries the given amount, description and date; its id is the next id (1 when there were none, otherwise the largest old id plus one), so it exceeds every old id and keeps ids distinct |
| Billing.MarkPaid | HMS/test.py:580-585 | only status can change, and only on the first bill with the id, which becomes Paid; with no such bill the list is unchanged; ids are unchanged |
| Billing.MarkPaidIdempotent | HMS/test.py:580-585 | marking the same bill paid twice equals marking it once |
| Billing.RemoveBill | HMS/test.py:597-598 | every remaining bill was there before and lacks the id; every bill without the id remains; with no such bill the list is unchanged |
| Billing.RemoveBillAppend | HMS/test.py:598 | deletion works piecewise over a concatenation, so survivors keep their order |
| Billing.RemoveBillKeepsUnique | HMS/test.py:598 | deleting keeps bill ids distinct |
| Billing.RemoveAppendedBill | HMS/test.py:552-560 | deleting the id of the bill just appended restores the old list |
| Billing.AppendPrescription | HMS/test.py:669-678 | the old prescriptions stay in place; the new one carries the given fields; its id is the next id (1 when there were none, otherwise the largest old id plus one), so it exceeds every old id and keeps ids distinct |
| Billing.RemovePrescription | HMS/test.py:698-699 | every remaining prescription was there before and lacks the id; every one without the id remains; with none the list is unchanged |
| Billing.RemovePrescriptionAppend | HMS/test.py:699 | deletion works piecewise over a concatenation, so survivors keep their order |
| Billing.RemoveAppendedPrescription | HMS/test.py:669-678 | deleting the id of the prescription just appended restores the old list |
| Billing.PatientIndex | HMS/test.py:550 | the row is the first patient with the id; none exactly when no patient has it |
| Billing.PatientIndexAfterEdit | HMS/test.py:550-561 | an edit that keeps the patient's id leaves that patient as the first match |
| Billing.AddBill | HMS/test.py:550-561 | refused when no patient has the id, or when the amount text is not a number; otherwise only the first such patient changes, by appending the bill |
| Billing.AppendedBillDeleted | HMS/test.py:555-599 | deleting the id of a bill just appended to the first patient with an id gives back the store |
| Billing.AddBillThenDelete | HMS/test.py:550-599 | deleting the new bill's id from the same patient gives back the store before the addition |
| Billing.MarkBillPaid | HMS/test.py:579-585 | refused exactly when no patient has the id; otherwise only that patient's bills change, as marking paid prescribes |
| Billing.DeleteBill | HMS/test.py:596-599 | refused exactly when no patient has the id; otherwise only that patient's bills change, as deletion prescribes |
| Billing.AddPrescription | HMS/test.py:667-679 | refused exactly when no patient has the id; otherwise only that patient changes, by appending the prescription |
| Billing.AppendedPrescriptionDeleted | HMS/test.py:672-700 | deleting the id of a prescription just appended to the first patient with an id gives back the store |
| Billing.AddPrescriptionThenDelete | HMS/test.py:667-699 | deleting the new prescription's id from the same patient gives back the store before the addition |
| Billing.DeletePrescription | HMS/test.py:697-700 | refused exactly when no patient has the id; otherwise only that patient's prescriptions change, as deletion prescribes |
| Admin.ChangePatientPassword | HMS/test.py:750-764 | each refusal (id text not an integer, confirmation differs, wrong doctor password, no such patient) happens exactly under its own condition, in the code's order; otherwise every patient with the id gets the new password and nothing else changes |
| Admin.ChangedPasswordLogsIn | HMS/test.py:764 | after a change to a password with no whitespace at either end, the patient can log in with its id text and the new password |
| Admin.AddPatient | HMS/test.py:792-808 | refused exactly when the age text is not an integer; otherwise one patient is appended with the next id (1 for an empty store, otherwise the largest id plus one), the given fields and empty lists, and ids stay distinct |
| Admin.AddedPatientLogsIn | HMS/test.py:797-808 | a patient added with a password that has no whitespace at either end can log in with its id text and that password |
| Admin.PaddedPasswordLocksOut | HMS/test.py:797-808 | a patient added with a password that starts with whitespace cannot log in with its id text and that password |
| Admin.IdTextLogsInAs | HMS/test.py:225 | the text of an id, as the login form strips and parses it, reads back as that id |
| Admin.AppendAppointment | HMS/test.py:850-867 | the old appointments stay in place; the new one carries the given patient, doctor, date and time; its id is the next id (1 when there were none, otherwise the largest old id plus one), so it exceeds every old id and keeps ids distinct |
| Admin.PatientLabel | HMS/test.py:833 | the list entry is the id text, " - " and the name, and its first space ends the id text |
| Admin.LabelDeterminesPatient | HMS/test.py:833-859 | two patients with the same list entry have the same id and name, so the id `next(...)` picks for an entry does not depend on which of them comes first |
| Admin.ScheduleAppointment | HMS/test.py:829-867 | refused exactly when there are no patients, or when no patient's list entry is the selected one; otherwise the appointment is for the first patient with that entry, by the logged-in doctor, dated as typed or today |

## Left out

- The Tk user interface, the JavaFX layout in `HMS/SRC/Main.java`, and dialogs and message boxes. Each refusal becomes an error value.
- File I/O and JSON text: `os.path.exists`, `open`, `json.load` and `json.dump`. Loading and saving are modelled on already-parsed values. A missing file, which leaves the collection empty, is not modelled. The non-atomic rewrite of the three files is not modelled either.
- pandas mechanics: DataFrame construction, dtype coercion, and the row index. Each collection is a `seq`, and "row index" means the position in it.
- Access.Matches and Access.SearchPatient: `str.contains` treats its pattern as a regular expression. The model treats it as a literal substring, so a query with regular-expression metacharacters behaves differently.
- Floating point: amounts are exact reals. Rounding, display formatting (`:,.2f`) and the "Total Due" sums (lines 298 and 505) are left out.
- Numbers.ParseInt: accepts only an optional sign and ASCII digits around whitespace. Underscores between digits and non-ASCII digits, which Python's `int()` accepts, are not modelled.
- Numbers.ParseFloat: accepts only an optional sign and an amount token (digits with at most one dot). Exponents, `inf` and `nan`, underscores between digits and non-ASCII digits, which Python's `float()` accepts, are not modelled.
- Text.Lower: folds only ASCII letters, whereas Python's `lower()` also folds other scripts.
- Numbers.IsDigits: accepts only ASCII digits. A legacy amount written with other Unicode digits is therefore kept whole as the description. Python would convert it when `float()` accepts those digits. When `float()` rejects them, the `except` branch at lines 86-87 gives the same result as the model.
- Codec.ReadBills: a later entry of a legacy list that is not text makes the read fail. In Python it fails `rsplit` and is stored unchanged as the description (lines 86-87). `Legacy.ParseLegacyEntry` takes only text entries.
- Codec.PatientFromDict: the id, name, age, ailment, password and reports fields must have the expected kind (integer id, text name, list of text reports), or the read fails. Python stores those values unchecked, including JSON `null` and `true`/`false` (a boolean is a Python `int`).
- Codec.PatientFromDict: a `bills` or `prescriptions` value that is not a list is refused. Python's treatment depends on the value (lines 74-92):
  - a non-empty text `bills` value passes the legacy test at line 76, so each of its characters is migrated as one legacy bill;
  - an empty text or an empty object reads as no bills (line 90), and the same holds for `prescriptions` (line 92);
  - a number, a boolean, `null` or a non-empty object raises, which the model's refusal matches;
  - a non-empty text `prescriptions` value raises as well.
- Codec.BillFromDict: a field of the wrong kind (a text amount, a float id, `null`, a boolean) is refused. `Bill(**data)` stores it unchecked.
- Codec.PrescriptionFromDict: a field of the wrong kind, `null` or a boolean included, is refused. `Prescription(**data)` stores it unchecked.
- Codec.DoctorFromDict: a field of the wrong kind, `null` or a boolean included, is refused. The positional constructor at line 111 stores it unchecked.
- Codec.AppointmentFromDict: a field of the wrong kind, `null` or a boolean included, is refused. The positional constructor at line 126 stores it unchecked.
- `load_data` has no handler around the record readers, so one malformed record raises out of it and the whole collection fails to load. `Codec.LoadPatients`, `Codec.LoadDoctors` and `Codec.LoadAppointments` model this as one error for the collection.
- Billing.PatientMissing: the bill and prescription edits find the patient's row with `.index[0]` (lines 550, 579, 596, 667, 697) outside any handler. With no such row, Python raises an uncaught `IndexError`, and `add_new_bill` and `add_new_prescription` leave a half-built popup. The model returns the `PatientMissing` error instead. The case cannot arise in the program, because the patient was just found by search and patients are never deleted.
- Opening a form and saving it are one step in the model. The program fixes the new id when the form opens and writes only when Save is pressed. The forms are non-modal `Toplevel` windows (lines 531, 635, 777, 821), so several can be open at once, and the store can change between opening and saving. The distinct-ids promises of the four members below hold only for the fused step.
- Billing.AppendBill: the id and the patient's bill list are captured when the form opens (lines 551-552) and written back at Save (560-561). Two bill forms open together give both bills the same id. A bill deleted while the form is open (lines 598-599) is restored when the stale list is written back.
- Billing.AppendPrescription: the id and the prescription list are captured when the form opens (lines 668-669) and written back at Save (678-679). This has the same consequences: duplicate ids, and a prescription deleted meanwhile (lines 698-699) comes back.
- Admin.AddPatient: the id is fixed when the form opens (line 792), so two Add Patient forms open together save two patients with the same id.
- Admin.AppendAppointment: the id and the patient list are fixed when the form opens (lines 829 and 850), so two forms open together save two appointments with the same id.
- Billing.AddBill: the model returns the patients with the bill added. In the program, when the patient already has bills, line 552 takes the id from `get_next_id`. That id is the pandas `max() + 1` of line 175, a NumPy integer rather than a Python `int`. It is stored inside the nested bill list (lines 560-561), which `to_dict(orient='records')` does not convert. So `json.dump` at line 167 fails after `open(path, 'w')` has already emptied the patients file.
  - `save()` reports the error and leaves the form open (lines 567-569).
  - Pressing Save again appends a second bill with the same id.
  - Later saves fail at the patients file before writing doctors or appointments.
  - JSON serialisation, and so this failure, is not modelled.
- Billing.AddPrescription: the same failure for a patient who already has prescriptions. Here the id comes from line 669, is stored at lines 678-679, and the error is reported at lines 685-687.
- Images: base64 encoding, `PhotoImage` and the file dialog (lines 342, 657-661, 714), and `view_prescription_image`. An image is opaque text.
- `datetime.now()` becomes the `today` parameter. Logging and CSV export are left out.
- The dashboards that only list records, and the default admin doctor created when no doctors exist (lines 912-916).

=== FILE: access.dfy ===
/** Read-only access to the store: logging in and looking a patient up by
    id text or name. */
module Access {
  import opened Wrappers
  import opened Text
  import opened Numbers
  import opened Records
  import opened Lists

  datatype Role = PatientRole | DoctorRole

  /** Who is logged in; the record is the one read from the store. */
  datatype Session = PatientSession(patient: Patient) | DoctorSession(doctor: Doctor)

  datatype LoginError = IdNotANumber | InvalidCredentials

  function PatientCredentials(id: int, password: string): Patient -> bool {
    (p: Patient) => p.id == id && p.password == password
  }

  function DoctorCredentials(id: int, password: string): Doctor -> bool {
    (d: Doctor) => d.id == id && d.password == password
  }

  /** The patient branch of `login`: the first patient with that id and
      password. */
  function PatientLogin(patients: seq<Patient>, id: int, password: string): (r: Result<Session, LoginError>)
    ensures r.Ok? <==> exists i :: 0 <= i < |patients| && patients[i].id == id && patients[i].password == password
    ensures r.Ok? ==> exists i :: IsFirst(patients, PatientCredentials(id, password), i) && r.value == PatientSession(patients[i])
    ensures r.Err? ==> r.error == InvalidCredentials
  {
    match FindFirst(patients, PatientCredentials(id, password))
    case None => Err(InvalidCredentials)
    case Some(i) => Ok(PatientSession(patients[i]))
  }

  /** The doctor branch of `login`: the first doctor with that id and
      password. */
  function DoctorLogin(doctors: seq<Doctor>, id: int, password: string): (r: Result<Session, LoginError>)
    ensures r.Ok? <==> exists i :: 0 <= i < |doctors| && doctors[i].id == id && doctors[i].password == password
    ensures r.Ok? ==> exists i :: IsFirst(doctors, DoctorCredentials(id, password), i) && r.value == DoctorSession(doctors[i])
    ensures r.Err? ==> r.error == InvalidCredentials
  {
    match FindFirst(doctors, DoctorCredentials(id, password))
    case None => Err(InvalidCredentials)
    case Some(i) => Ok(DoctorSession(doctors[i]))
  }

  /** `login`: the id text must be an integer and the password is stripped
      before the role's collection is searched. */
  function Login(patients: seq<Patient>, doctors: seq<Doctor>, role: Role, idText: string, passwordText: string)
    : (r: Result<Session, LoginError>)
    ensures r == Err(IdNotANumber) <==> ParseInt(Strip(idText)).None?
    ensures ParseInt(Strip(idText)).Some? && role == PatientRole ==>
      r == PatientLogin(patients, ParseInt(Strip(idText)).value, Strip(passwordText))
    ensures ParseInt(Strip(idText)).Some? && role == DoctorRole ==>
      r == DoctorLogin(doctors, ParseInt(Strip(idText)).value, Strip(passwordText))
  {
    match ParseInt(Strip(idText))
    case None => Err(IdNotANumber)
    case Some(id) =>
      if role == PatientRole then PatientLogin(patients, id, Strip(passwordText))
      else DoctorLogin(doctors, id, Strip(passwordText))
  }

  datatype SearchError = EmptyQuery | NotFound

  /** The search box text as matched: stripped, then lower-cased. */
  function SearchQuery(text: string): (q: string)
    ensures Stripped(q) && |q| <= |text|
    ensures forall i :: 0 <= i < |q| ==> !('A' <= q[i] <= 'Z')
    ensures AllSpace(text) <==> q == ""
  {
    StripEmpty(text);
    LowerKeepsStripped(Strip(text));
    Lower(Strip(text))
  }

  /** The matched query is `text.strip().lower()`: whatever whitespace
      surrounds the typed core, the query is that core lower-cased. */
  lemma SearchQueryOf(front: string, core: string, back: string)
    requires AllSpace(front) && AllSpace(back) && Stripped(core)
    ensures SearchQuery(front + core + back) == Lower(core)
  {
    StripUnique(front, core, back);
  }

  /** Typing the matched form of a query again matches the same way. */
  lemma SearchQueryIdempotent(text: string)
    ensures SearchQuery(SearchQuery(text)) == SearchQuery(text)
  {
    var q := SearchQuery(text);
    StripOfStripped(q);
    assert Lower(q) == q;
  }

  /** A patient matches when the decimal text of its id, or its lower-cased
      name, contains the query. */
  function Matches(p: Patient, query: string): (b: bool)
    ensures b <==> (exists i :: OccursAt(IntToString(p.id), query, i)) || (exists i :: OccursAt(Lower(p.name), query, i))
    ensures query == "" ==> b
  {
    assert query == "" ==> OccursAt(IntToString(p.id), query, 0);
    Contains(IntToString(p.id), query) || Contains(Lower(p.name), query)
  }

  function MatchesQuery(query: string): Patient -> bool {
    (p: Patient) => Matches(p, query)
  }

  /** `load_patient_bills` / `load_patient_prescriptions`: an empty query is
      refused; otherwise the first matching patient is selected. */
  function SearchPatient(patients: seq<Patient>, text: string): (r: Result<Patient, SearchError>)
    ensures r == Err(EmptyQuery) <==> SearchQuery(text) == ""
    ensures r == Err(NotFound) <==>
      SearchQuery(text) != "" && forall i :: 0 <= i < |patients| ==> !Matches(patients[i], SearchQuery(text))
    ensures r.Ok? ==> exists i :: IsFirst(patients, MatchesQuery(SearchQuery(text)), i) && r.value == patients[i]
  {
    var query := SearchQuery(text);
    if query == "" then Err(EmptyQuery)
    else match FindFirst(patients, MatchesQuery(query))
      case None => Err(NotFound)
      case Some(i) => Ok(patients[i])
  }

  /** Searching for a patient's own id text always finds a patient. */
  lemma SearchFindsOwnId(patients: seq<Patient>, k: int)
    requires 0 <= k < |patients|
    ensures SearchPatient(patients, IntToString(patients[k].id)).Ok?
  {
    var s := IntToString(patients[k].id);
    IntTextIsCanonical(patients[k].id);
    StripOfStripped(s);
    ContainsItself(s);
    assert Matches(patients[k], SearchQuery(s));
  }
}

=== FILE: admin.dfy ===
/** Doctor-side changes to the top-level collections: changing a patient's
    password, adding a patient and scheduling an appointment. */
module Admin {
  import opened Wrappers
  import opened Text
  import opened Numbers
  import opened Records
  import opened Lists
  import opened Ids
  import opened Access

  datatype PasswordError = PatientIdNotANumber | PasswordsDiffer | WrongDoctorPassword | PatientNotFound

  /** `change_patient_password`: the id text must be an integer, the new
      password must equal its confirmation, the logged-in doctor's password
      must be given, and some patient must have the id; then every patient
      with that id gets the new password and nothing else changes. */
  function ChangePatientPassword(patients: seq<Patient>, idText: string, newPassword: string,
                                 confirmPassword: string, doctorPassword: string, doctor: Doctor)
    : (r: Result<seq<Patient>, PasswordError>)
    ensures r == Err(PatientIdNotANumber) <==> ParseInt(idText).None?
    ensures r == Err(PasswordsDiffer) <==> ParseInt(idText).Some? && newPassword != confirmPassword
    ensures r == Err(WrongDoctorPassword) <==>
      ParseInt(idText).Some? && newPassword == confirmPassword && doctorPassword != doctor.password
    ensures r == Err(PatientNotFound) <==>
      ParseInt(idText).Some? && newPassword == confirmPassword && doctorPassword == doctor.password
      && forall i :: 0 <= i < |patients| ==> patients[i].id != ParseInt(idText).value
    ensures r.Ok? ==> |r.value| == |patients| && forall i :: 0 <= i < |patients| ==>
      && r.value[i].(password := patients[i].password) == patients[i]
      && (patients[i].id == ParseInt(idText).value ==> r.value[i].password == newPassword)
      && (patients[i].id != ParseInt(idText).value ==> r.value[i] == patients[i])
  {
    match ParseInt(idText)
    case None => Err(PatientIdNotANumber)
    case Some(id) =>
      if newPassword != confirmPassword then Err(PasswordsDiffer)
      else if doctorPassword != doctor.password then Err(WrongDoctorPassword)
      else if FindFirst(patients, PatientWithId(id)).None? then Err(PatientNotFound)
      else Ok(seq(|patients|, i requires 0 <= i < |patients| =>
        if patients[i].id == id then patients[i].(password := newPassword) else patients[i]))
  }

  datatype AddPatientError = AgeNotANumber

  /** `add_patient`: the age text must be an integer; a patient with the
      next id and no reports, bills or prescriptions is appended. */
  function AddPatient(patients: seq<Patient>, name: string, ageText: string, ailment: string, password: string)
    : (r: Result<seq<Patient>, AddPatientError>)
    ensures r.Err? <==> ParseInt(ageText).None?
    ensures r.Ok? ==> |r.value| == |patients| + 1 && r.value[..|patients|] == patients
    ensures r.Ok? ==> var p := r.value[|patients|];
      && p.name == name && p.age == ParseInt(ageText).value && p.ailment == ailment
      && p.password == password && p.reports == [] && p.bills == [] && p.prescriptions == []
      && p.id == NextId(PatientIds(patients))
      && (forall i :: 0 <= i < |patients| ==> patients[i].id < p.id)
      && (|patients| == 0 ==> p.id == 1)
    ensures r.Ok? && Unique(PatientIds(patients)) ==> Unique(PatientIds(r.value))
  {
    var ids := PatientIds(patients);
    match ParseInt(ageText)
    case None => Err(AgeNotANumber)
    case Some(age) =>
      NextIdIsFresh(ids);
      var r := patients + [Patient(NextId(ids), name, age, ailment, password, [], [], [])];
      assert PatientIds(r) == ids + [NextId(ids)];
      Ok(r)
  }

  /** Login strips the typed password but `add_patient` stores it as
      typed: a patient added with a password that starts with whitespace
      cannot log in with it. */
  lemma PaddedPasswordLocksOut(patients: seq<Patient>, doctors: seq<Doctor>, name: string, ageText: string,
                               ailment: string, password: string)
    requires AddPatient(patients, name, ageText, ailment, password).Ok?
    requires |password| > 0 && IsSpace(password[0])
    ensures var added := AddPatient(patients, name, ageText, ailment, password).value;
      Login(added, doctors, PatientRole, IntToString(added[|patients|].id), password) == Err(InvalidCredentials)
  {
    var added := AddPatient(patients, name, ageText, ailment, password).value;
    var id := added[|patients|].id;
    IdTextLogsInAs(id);
    StripShortens(password);
    var typed := Strip(password);
    forall i | 0 <= i < |added| && added[i].id == id ensures added[i].password != typed {
      assert i == |patients|;
    }
    assert PatientLogin(added, id, typed).Err?;
  }

  /** A patient added with a password that has no whitespace at either end
      can log in with its id and that password. */
  lemma AddedPatientLogsIn(patients: seq<Patient>, doctors: seq<Doctor>, name: string, ageText: string,
                           ailment: string, password: string)
    requires AddPatient(patients, name, ageText, ailment, password).Ok?
    requires Stripped(password)
    ensures var added := AddPatient(patients, name, ageText, ailment, password).value;
      Login(added, doctors, PatientRole, IntToString(added[|patients|].id), password).Ok?
  {
    var added := AddPatient(patients, name, ageText, ailment, password).value;
    IdTextLogsInAs(added[|patients|].id);
    StripOfStripped(password);
    assert PatientCredentials(added[|patients|].id, password)(added[|patients|]);
  }

  /** After a password change the patient logs in with the new password,
      provided it has no whitespace at either end. */
  lemma ChangedPasswordLogsIn(patients: seq<Patient>, doctors: seq<Doctor>, idText: string, newPassword: string,
                              doctorPassword: string, doctor: Doctor)
    requires ChangePatientPassword(patients, idText, newPassword, newPassword, doctorPassword, doctor).Ok?
    requires Stripped(newPassword)
    ensures var changed := ChangePatientPassword(patients, idText, newPassword, newPassword, doctorPassword, doctor).value;
      Login(changed, doctors, PatientRole, IntToString(ParseInt(idText).value), newPassword).Ok?
  {
    var changed := ChangePatientPassword(patients, idText, newPassword, newPassword, doctorPassword, doctor).value;
    var id := ParseInt(idText).value;
    var k :| 0 <= k < |patients| && patients[k].id == id;
    IdTextLogsInAs(id);
    StripOfStripped(newPassword);
    assert PatientCredentials(id, newPassword)(changed[k]);
  }

  lemma IdTextLogsInAs(id: int)
    ensures ParseInt(Strip(IntToString(id))) == Some(id)
  {
    var t := IntToString(id);
    IntTextIsCanonical(id);
    StripOfStripped(t);
    ParseIntRoundTrip(id, [], []);
    assert [] + t + [] == t;
  }

  datatype AppointmentError = NoPatients | PatientNotListed

  /** The entry a patient has in the appointment form's patient list. */
  function PatientLabel(p: Patient): (entry: string)
    ensures |entry| == |IntToString(p.id)| + 3 + |p.name|
    ensures entry[..|IntToString(p.id)|] == IntToString(p.id)
    ensures IndexOf(entry, ' ') == Some(|IntToString(p.id)|)
    ensures entry[|IntToString(p.id)|..|IntToString(p.id)| + 3] == " - "
    ensures entry[|IntToString(p.id)| + 3..] == p.name
  {
    var idText := IntToString(p.id);
    var entry := idText + " - " + p.name;
    assert entry[..|idText|] == idText;
    IdTextHasNoSpace(p.id);
    assert entry[|idText|] == ' ';
    entry
  }

  /** The text of an id is a sign and digits, so it holds no space. */
  lemma IdTextHasNoSpace(id: int)
    ensures ' ' !in IntToString(id)
  {
    var t := IntToString(id);
    forall k | 0 <= k < |t| ensures t[k] != ' ' {
      if id < 0 && k > 0 { assert t[k] == t[1..][k - 1]; }
    }
  }

  /** A list entry names one id and one name: two patients with the same
      entry have the same id and the same name. */
  lemma LabelDeterminesPatient(p: Patient, q: Patient)
    requires PatientLabel(p) == PatientLabel(q)
    ensures p.id == q.id && p.name == q.name
  {
    assert |IntToString(p.id)| == |IntToString(q.id)|;
    assert IntToString(p.id) == IntToString(q.id);
    IdTextLogsInAs(p.id);
    IdTextLogsInAs(q.id);
  }

  function LabelIs(entry: string): Patient -> bool {
    (p: Patient) => PatientLabel(p) == entry
  }

  /** An appointment with the next appointment id appended; the earlier
      ones stay as they were. */
  function AppendAppointment(appointments: seq<Appointment>, patientId: int, doctorId: int, date: string, time: string)
    : (r: seq<Appointment>)
    ensures |r| == |appointments| + 1 && r[..|appointments|] == appointments
    ensures r[|appointments|].patientId == patientId && r[|appointments|].doctorId == doctorId
    ensures r[|appointments|].date == date && r[|appointments|].time == time
    ensures r[|appointments|].id == NextId(AppointmentIds(appointments))
    ensures forall i :: 0 <= i < |appointments| ==> appointments[i].id < r[|appointments|].id
    ensures |appointments| == 0 ==> r[0].id == 1
    ensures Unique(AppointmentIds(appointments)) ==> Unique(AppointmentIds(r))
  {
    var ids := AppointmentIds(appointments);
    NextIdIsFresh(ids);
    var r := appointments + [Appointment(NextId(ids), patientId, doctorId, date, time)];
    assert AppointmentIds(r) == ids + [NextId(ids)];
    r
  }

  /** `schedule_appointment`: refused when there are no patients; the
      patient is the first one whose list entry is the selected entry; the
      appointment gets the next id and the logged-in doctor's id. */
  function ScheduleAppointment(patients: seq<Patient>, appointments: seq<Appointment>, selected: string,
                               doctor: Doctor, dateText: string, time: string, today: string)
    : (r: Result<seq<Appointment>, AppointmentError>)
    ensures r == Err(NoPatients) <==> |patients| == 0
    ensures r == Err(PatientNotListed) <==>
      |patients| > 0 && forall i :: 0 <= i < |patients| ==> !LabelIs(selected)(patients[i])
    ensures r.Ok? ==> exists i ::
      && IsFirst(patients, LabelIs(selected), i)
      && r.value == AppendAppointment(appointments, patients[i].id, doctor.id, DateOrToday(dateText, today), time)
  {
    if |patients| == 0 then Err(NoPatients)
    else
      match FindFirst(patients, LabelIs(selected))
      case None => Err(PatientNotListed)
      case Some(i) =>
        Ok(AppendAppointment(appointments, patients[i].id, doctor.id, DateOrToday(dateText, today), time))
  }
}

=== FILE: billing.dfy ===
/** The nested-list edits on one patient: adding a bill or prescription
    with a generated id, marking a bill paid, and deleting by id. The whole
    list is replaced on the first patient with the selected id. */
module Billing {
  import opened Wrappers
  import opened Numbers
  import opened Records
  import opened Lists
  import opened Ids

  // ---------- list-level edits ----------

  /** `add_new_bill`'s save: a pending bill with the next bill id is
      appended; the earlier bills stay as they were. */
  function AppendBill(bills: seq<Bill>, amount: real, description: string, date: string): (r: seq<Bill>)
    ensures |r| == |bills| + 1 && r[..|bills|] == bills
    ensures r[|bills|].amount == amount && r[|bills|].description == description
    ensures r[|bills|].date == date && r[|bills|].status == Pending
    ensures r[|bills|].id == NextId(BillIds(bills))
    ensures forall i :: 0 <= i < |bills| ==> bills[i].id < r[|bills|].id
    ensures |bills| == 0 ==> r[0].id == 1
    ensures Unique(BillIds(bills)) ==> Unique(BillIds(r))
  {
    var ids := BillIds(bills);
    NextIdIsFresh(ids);
    var r := bills + [Bill(NextId(ids), amount, description, date, Pending)];
    assert BillIds(r) == ids + [NextId(ids)];
    r
  }

  /** `mark_bill_paid`'s loop: the first bill with the id becomes "Paid";
      nothing else changes, and without such a bill the list is unchanged. */
  function MarkPaid(bills: seq<Bill>, id: int): (r: seq<Bill>)
    ensures |r| == |bills|
    ensures forall i :: 0 <= i < |bills| ==> r[i].(status := bills[i].status) == bills[i]
    ensures forall i :: 0 <= i < |bills| ==>
      r[i] == (if IsFirst(bills, BillWithId(id), i) then bills[i].(status := Paid) else bills[i])
    ensures (forall i :: 0 <= i < |bills| ==> bills[i].id != id) ==> r == bills
    ensures BillIds(r) == BillIds(bills)
  {
    match FindFirst(bills, BillWithId(id))
    case None => bills
    case Some(k) => bills[k := bills[k].(status := Paid)]
  }

  /** `delete_bill`'s comprehension: exactly the bills with the id are
      dropped. */
  function RemoveBill(bills: seq<Bill>, id: int): (r: seq<Bill>)
    ensures forall i :: 0 <= i < |r| ==> r[i] in bills && r[i].id != id
    ensures forall i :: 0 <= i < |bills| && bills[i].id != id ==> bills[i] in r
    ensures (forall i :: 0 <= i < |bills| ==> bills[i].id != id) ==> r == bills
  {
    FilterKeepsAll(bills, (b: Bill) => b.id != id);
    Filter(bills, (b: Bill) => b.id != id)
  }

  /** Deletion works piecewise, so the surviving bills keep their order. */
  lemma RemoveBillAppend(a: seq<Bill>, b: seq<Bill>, id: int)
    ensures RemoveBill(a + b, id) == RemoveBill(a, id) + RemoveBill(b, id)
  {
    FilterAppend(a, b, (x: Bill) => x.id != id);
  }

  /** Deleting keeps the remaining bill ids unique. */
  lemma RemoveBillKeepsUnique(bills: seq<Bill>, id: int)
    requires Unique(BillIds(bills))
    ensures Unique(BillIds(RemoveBill(bills, id)))
  {
    var key := (b: Bill) => b.id;
    assert DistinctKeys(bills, key) by {
      forall i, j | 0 <= i < j < |bills| ensures key(bills[i]) != key(bills[j]) {
        assert BillIds(bills)[i] != BillIds(bills)[j];
      }
    }
    FilterKeepsDistinct(bills, (b: Bill) => b.id != id, key);
    var r := RemoveBill(bills, id);
    forall i, j | 0 <= i < j < |r| ensures BillIds(r)[i] != BillIds(r)[j] {
      assert key(r[i]) != key(r[j]);
    }
  }

  /** `add_new_prescription`'s save: a prescription with the next
      prescription id is appended; the earlier ones stay as they were. */
  function AppendPrescription(ps: seq<Prescription>, medicine: string, description: string, date: string, image: string)
    : (r: seq<Prescription>)
    ensures |r| == |ps| + 1 && r[..|ps|] == ps
    ensures r[|ps|].medicine == medicine && r[|ps|].description == description
    ensures r[|ps|].date == date && r[|ps|].image == image
    ensures r[|ps|].id == NextId(PrescriptionIds(ps))
    ensures forall i :: 0 <= i < |ps| ==> ps[i].id < r[|ps|].id
    ensures |ps| == 0 ==> r[0].id == 1
    ensures Unique(PrescriptionIds(ps)) ==> Unique(PrescriptionIds(r))
  {
    var ids := PrescriptionIds(ps);
    NextIdIsFresh(ids);
    var r := ps + [Prescription(NextId(ids), medicine, description, date, image)];
    assert PrescriptionIds(r) == ids + [NextId(ids)];
    r
  }

  /** `delete_prescription`'s comprehension: exactly the prescriptions with
      the id are dropped. */
  function RemovePrescription(ps: seq<Prescription>, id: int): (r: seq<Prescription>)
    ensures forall i :: 0 <= i < |r| ==> r[i] in ps && r[i].id != id
    ensures forall i :: 0 <= i < |ps| && ps[i].id != id ==> ps[i] in r
    ensures (forall i :: 0 <= i < |ps| ==> ps[i].id != id) ==> r == ps
  {
    FilterKeepsAll(ps, (p: Prescription) => p.id != id);
    Filter(ps, (p: Prescription) => p.id != id)
  }

  lemma RemovePrescriptionAppend(a: seq<Prescription>, b: seq<Prescription>, id: int)
    ensures RemovePrescription(a + b, id) == RemovePrescription(a, id) + RemovePrescription(b, id)
  {
    FilterAppend(a, b, (x: Prescription) => x.id != id);
  }

  // ---------- edits on the store ----------

  datatype EditError = PatientMissing | AmountNotANumber

  /** The row `patients_df[patients_df['id'] == id].index[0]`. */
  function PatientIndex(patients: seq<Patient>, id: int): (r: Option<nat>)
    ensures r.Some? ==> IsFirst(patients, PatientWithId(id), r.value)
    ensures r.None? <==> forall i :: 0 <= i < |patients| ==> patients[i].id != id
  {
    FindFirst(patients, PatientWithId(id))
  }

  /** The store after replacing the first patient with the id by `p'`. */
  ghost predicate EditedAt(patients: seq<Patient>, r: seq<Patient>, k: nat, p': Patient) {
    |r| == |patients| && k < |patients| && r[k] == p'
    && forall j :: 0 <= j < |patients| && j != k ==> r[j] == patients[j]
  }

  /** `add_new_bill`: the patient must exist and the amount text must be a
      number; the new bill is appended to that patient's bills only. */
  function AddBill(patients: seq<Patient>, patientId: int, amountText: string, description: string,
                   dateText: string, today: string): (r: Result<seq<Patient>, EditError>)
    ensures r == Err(PatientMissing) <==> PatientIndex(patients, patientId).None?
    ensures r == Err(AmountNotANumber) <==>
      PatientIndex(patients, patientId).Some? && ParseFloat(amountText).None?
    ensures r.Ok? ==>
      var k := PatientIndex(patients, patientId).value;
      EditedAt(patients, r.value, k, patients[k].(bills := AppendBill(patients[k].bills,
        ParseFloat(amountText).value, description, DateOrToday(dateText, today))))
  {
    match PatientIndex(patients, patientId)
    case None => Err(PatientMissing)
    case Some(k) =>
      match ParseFloat(amountText)
      case None => Err(AmountNotANumber)
      case Some(amount) =>
        var p := patients[k];
        Ok(patients[k := p.(bills := AppendBill(p.bills, amount, description, DateOrToday(dateText, today)))])
  }

  /** `mark_bill_paid` on the store. */
  function MarkBillPaid(patients: seq<Patient>, patientId: int, billId: int): (r: Result<seq<Patient>, EditError>)
    ensures r.Err? <==> PatientIndex(patients, patientId).None?
    ensures r.Err? ==> r.error == PatientMissing
    ensures r.Ok? ==>
      var k := PatientIndex(patients, patientId).value;
      EditedAt(patients, r.value, k, patients[k].(bills := MarkPaid(patients[k].bills, billId)))
  {
    match PatientIndex(patients, patientId)
    case None => Err(PatientMissing)
    case Some(k) => Ok(patients[k := patients[k].(bills := MarkPaid(patients[k].bills, billId))])
  }

  /** `delete_bill` on the store. */
  function DeleteBill(patients: seq<Patient>, patientId: int, billId: int): (r: Result<seq<Patient>, EditError>)
    ensures r.Err? <==> PatientIndex(patients, patientId).None?
    ensures r.Err? ==> r.error == PatientMissing
    ensures r.Ok? ==>
      var k := PatientIndex(patients, patientId).value;
      EditedAt(patients, r.value, k, patients[k].(bills := RemoveBill(patients[k].bills, billId)))
  {
    match PatientIndex(patients, patientId)
    case None => Err(PatientMissing)
    case Some(k) => Ok(patients[k := patients[k].(bills := RemoveBill(patients[k].bills, billId))])
  }

  /** `add_new_prescription`: the new prescription is appended to the
      patient's prescriptions only. */
  function AddPrescription(patients: seq<Patient>, patientId: int, medicine: string, description: string,
                           dateText: string, image: string, today: string): (r: Result<seq<Patient>, EditError>)
    ensures r.Err? <==> PatientIndex(patients, patientId).None?
    ensures r.Err? ==> r.error == PatientMissing
    ensures r.Ok? ==>
      var k := PatientIndex(patients, patientId).value;
      EditedAt(patients, r.value, k, patients[k].(prescriptions := AppendPrescription(patients[k].prescriptions,
        medicine, description, DateOrToday(dateText, today), image)))
  {
    match PatientIndex(patients, patientId)
    case None => Err(PatientMissing)
    case Some(k) =>
      var p := patients[k];
      Ok(patients[k := p.(prescriptions := AppendPrescription(p.prescriptions, medicine, description,
        DateOrToday(dateText, today), image))])
  }

  /** `delete_prescription` on the store. */
  function DeletePrescription(patients: seq<Patient>, patientId: int, prescriptionId: int)
    : (r: Result<seq<Patient>, EditError>)
    ensures r.Err? <==> PatientIndex(patients, patientId).None?
    ensures r.Err? ==> r.error == PatientMissing
    ensures r.Ok? ==>
      var k := PatientIndex(patients, patientId).value;
      EditedAt(patients, r.value, k,
        patients[k].(prescriptions := RemovePrescription(patients[k].prescriptions, prescriptionId)))
  {
    match PatientIndex(patients, patientId)
    case None => Err(PatientMissing)
    case Some(k) =>
      Ok(patients[k := patients[k].(prescriptions := RemovePrescription(patients[k].prescriptions, prescriptionId))])
  }

  // ---------- undoing an addition ----------

  /** Deleting the bill that was just appended gives back the old list. */
  lemma RemoveAppendedBill(bills: seq<Bill>, amount: real, description: string, date: string)
    ensures var r := AppendBill(bills, amount, description, date);
      RemoveBill(r, r[|bills|].id) == bills
  {
    var r := AppendBill(bills, amount, description, date);
    var added := r[|bills|];
    assert r == bills + [added];
    RemoveBillAppend(bills, [added], added.id);
    assert [added][1..] == [];
  }

  /** Deleting the prescription that was just appended gives back the old
      list. */
  lemma RemoveAppendedPrescription(ps: seq<Prescription>, medicine: string, description: string, date: string,
                                   image: string)
    ensures var r := AppendPrescription(ps, medicine, description, date, image);
      RemovePrescription(r, r[|ps|].id) == ps
  {
    var r := AppendPrescription(ps, medicine, description, date, image);
    var added := r[|ps|];
    assert r == ps + [added];
    RemovePrescriptionAppend(ps, [added], added.id);
    assert [added][1..] == [];
  }

  /** Editing a patient's lists leaves the patient where it was found. */
  lemma PatientIndexAfterEdit(patients: seq<Patient>, r: seq<Patient>, k: nat, p': Patient)
    requires EditedAt(patients, r, k, p') && p'.id == patients[k].id
    requires PatientIndex(patients, p'.id) == Some(k)
    ensures PatientIndex(r, p'.id) == Some(k)
  {
    assert IsFirst(r, PatientWithId(p'.id), k);
  }

  /** Deleting a bill just appended to the first patient with an id gives
      back the store. */
  lemma AppendedBillDeleted(patients: seq<Patient>, k: nat, amount: real, description: string, date: string)
    requires k < |patients| && PatientIndex(patients, patients[k].id) == Some(k)
    ensures var r := patients[k := patients[k].(bills := AppendBill(patients[k].bills, amount, description, date))];
      DeleteBill(r, patients[k].id, r[k].bills[|patients[k].bills|].id) == Ok(patients)
  {
    var before := patients[k].bills;
    var r := patients[k := patients[k].(bills := AppendBill(before, amount, description, date))];
    RemoveAppendedBill(before, amount, description, date);
    PatientIndexAfterEdit(patients, r, k, r[k]);
    var back := r[k := r[k].(bills := RemoveBill(r[k].bills, r[k].bills[|before|].id))];
    assert back[k] == patients[k];
    assert back == patients;
  }

  /** `delete_bill` undoes `add_new_bill`: removing the new bill's id from
      the same patient restores the store. */
  lemma AddBillThenDelete(patients: seq<Patient>, patientId: int, amountText: string, description: string,
                          dateText: string, today: string)
    requires PatientIndex(patients, patientId).Some? && ParseFloat(amountText).Some?
    ensures var k := PatientIndex(patients, patientId).value;
      var r := AddBill(patients, patientId, amountText, description, dateText, today).value;
      DeleteBill(r, patientId, r[k].bills[|patients[k].bills|].id) == Ok(patients)
  {
    var k := PatientIndex(patients, patientId).value;
    AppendedBillDeleted(patients, k, ParseFloat(amountText).value, description, DateOrToday(dateText, today));
  }

  /** Deleting a prescription just appended to the first patient with an
      id gives back the store. */
  lemma AppendedPrescriptionDeleted(patients: seq<Patient>, k: nat, medicine: string, description: string,
                                    date: string, image: string)
    requires k < |patients| && PatientIndex(patients, patients[k].id) == Some(k)
    ensures var r := patients[k := patients[k].(prescriptions :=
        AppendPrescription(patients[k].prescriptions, medicine, description, date, image))];
      DeletePrescription(r, patients[k].id, r[k].prescriptions[|patients[k].prescriptions|].id) == Ok(patients)
  {
    var before := patients[k].prescriptions;
    var r := patients[k := patients[k].(prescriptions := AppendPrescription(before, medicine, description, date, image))];
    RemoveAppendedPrescription(before, medicine, description, date, image);
    PatientIndexAfterEdit(patients, r, k, r[k]);
    var back := r[k := r[k].(prescriptions := RemovePrescription(r[k].prescriptions, r[k].prescriptions[|before|].id))];
    assert back[k] == patients[k];
    assert back == patients;
  }

  /** `delete_prescription` undoes `add_new_prescription`. */
  lemma AddPrescriptionThenDelete(patients: seq<Patient>, patientId: int, medicine: string, description: string,
                                  dateText: string, image: string, today: string)
    requires PatientIndex(patients, patientId).Some?
    ensures var k := PatientIndex(patients, patientId).value;
      var r := AddPrescription(patients, patientId, medicine, description, dateText, image, today).value;
      DeletePrescription(r, patientId, r[k].prescriptions[|patients[k].prescriptions|].id) == Ok(patients)
  {
    var k := PatientIndex(patients, patientId).value;
    AppendedPrescriptionDeleted(patients, k, medicine, description, DateOrToday(dateText, today), image);
  }

  /** Marking a bill paid twice is marking it once. */
  lemma MarkPaidIdempotent(bills: seq<Bill>, id: int)
    ensures MarkPaid(MarkPaid(bills, id), id) == MarkPaid(bills, id)
  {
    var once := MarkPaid(bills, id);
    var twice := MarkPaid(once, id);
    forall j | 0 <= j < |bills| ensures BillWithId(id)(once[j]) == BillWithId(id)(bills[j]) {
      assert once[j].id == bills[j].id;
    }
    forall i | 0 <= i < |bills| ensures twice[i] == once[i] {
      assert IsFirst(once, BillWithId(id), i) == IsFirst(bills, BillWithId(id), i);
    }
  }
}

=== FILE: codec.dfy ===
/** The `to_dict` / `from_dict` pairs of the five record kinds, and the
    load/save normalisation of whole collections. */
module Codec {
  import opened Wrappers
  import opened Records
  import opened Legacy

  /** Why a stored record cannot be read back. */
  datatype RecordError =
    | MissingField(name: string)
    | UnexpectedFields(names: set<string>)
    | WrongKind(name: string)
    | NotARecord

  // ---------- field access ----------

  predicate HasInt(d: Dict, key: string) {
    key in d && d[key].IntVal?
  }

  /** An integer or a floating-point number, as `float` fields accept. */
  predicate HasNumber(d: Dict, key: string) {
    key in d && (d[key].IntVal? || d[key].RealVal?)
  }

  predicate HasStr(d: Dict, key: string) {
    key in d && d[key].StrVal?
  }

  /** An optional text field: absent, or present as text. */
  predicate StrIfPresent(d: Dict, key: string) {
    key !in d || d[key].StrVal?
  }

  /** An optional list field: absent, or present as a list. */
  predicate ListIfPresent(d: Dict, key: string) {
    key !in d || d[key].ListVal?
  }

  /** The amount a number value stands for; an integer is the same amount. */
  function NumberOf(v: Value): real
    requires v.IntVal? || v.RealVal?
  {
    if v.RealVal? then v.r else v.i as real
  }

  /** The items of a list field, or none when the field is absent. */
  function StoredList(d: Dict, key: string): seq<Value> {
    if key in d && d[key].ListVal? then d[key].items else []
  }

  function GetInt(d: Dict, key: string): (r: Result<int, RecordError>)
    ensures key !in d ==> r == Err(MissingField(key))
    ensures r.Ok? <==> HasInt(d, key)
    ensures r.Ok? ==> r.value == d[key].i
  {
    if key !in d then Err(MissingField(key))
    else if d[key].IntVal? then Ok(d[key].i)
    else Err(WrongKind(key))
  }

  /** A number field; an integer is read as the same amount. */
  function GetNumber(d: Dict, key: string): (r: Result<real, RecordError>)
    ensures key !in d ==> r == Err(MissingField(key))
    ensures r.Ok? <==> HasNumber(d, key)
    ensures r.Ok? ==> r.value == NumberOf(d[key])
  {
    if key !in d then Err(MissingField(key))
    else if d[key].RealVal? then Ok(d[key].r)
    else if d[key].IntVal? then Ok(d[key].i as real)
    else Err(WrongKind(key))
  }

  function GetStr(d: Dict, key: string): (r: Result<string, RecordError>)
    ensures key !in d ==> r == Err(MissingField(key))
    ensures r.Ok? <==> HasStr(d, key)
    ensures r.Ok? ==> r.value == d[key].s
  {
    if key !in d then Err(MissingField(key))
    else if d[key].StrVal? then Ok(d[key].s)
    else Err(WrongKind(key))
  }

  /** A text field with a default for when it is absent. */
  function GetStrOr(d: Dict, key: string, default: string): (r: Result<string, RecordError>)
    ensures key !in d ==> r == Ok(default)
    ensures r.Ok? <==> StrIfPresent(d, key)
    ensures key in d && r.Ok? ==> r.value == d[key].s
  {
    if key !in d then Ok(default) else GetStr(d, key)
  }

  /** `data.get(key, [])` for a list field. */
  function GetListOr(d: Dict, key: string): (r: Result<seq<Value>, RecordError>)
    ensures key !in d ==> r == Ok([])
    ensures key in d && d[key].ListVal? ==> r == Ok(d[key].items)
    ensures key in d && !d[key].ListVal? ==> r == Err(WrongKind(key))
    ensures r.Ok? ==> r.value == StoredList(d, key)
  {
    if key !in d then Ok([])
    else if d[key].ListVal? then Ok(d[key].items)
    else Err(WrongKind(key))
  }

  /** A list of text values, as stored for reports and legacy bills. */
  function TextsFromValues(vs: seq<Value>, field: string): (r: Result<seq<string>, RecordError>)
    ensures r.Ok? <==> forall i :: 0 <= i < |vs| ==> vs[i].StrVal?
    ensures r.Ok? ==> |r.value| == |vs| && forall i :: 0 <= i < |vs| ==> vs[i] == StrVal(r.value[i])
  {
    if |vs| == 0 then Ok([])
    else if !vs[0].StrVal? then Err(WrongKind(field))
    else
      var rest :- TextsFromValues(vs[1..], field);
      Ok([vs[0].s] + rest)
  }

  function TextsToValues(ts: seq<string>): (vs: seq<Value>)
    ensures |vs| == |ts| && forall i :: 0 <= i < |ts| ==> vs[i] == StrVal(ts[i])
  {
    seq(|ts|, i requires 0 <= i < |ts| => StrVal(ts[i]))
  }

  /** Reading back saved texts gives the same texts. */
  lemma TextsRoundTrip(ts: seq<string>, field: string)
    ensures TextsFromValues(TextsToValues(ts), field) == Ok(ts)
  {
    var r := TextsFromValues(TextsToValues(ts), field);
    assert r.Ok?;
    assert r.value == ts;
  }

  // ---------- lists of records ----------

  /** Reads every element of a stored list with `decode`; the first element
      that is not a record, or that `decode` rejects, fails the whole list. */
  function DecodeAll<T>(vs: seq<Value>, decode: Dict -> Result<T, RecordError>): (r: Result<seq<T>, RecordError>)
    ensures r.Ok? <==> forall i :: 0 <= i < |vs| ==> vs[i].DictVal? && decode(vs[i].fields).Ok?
    ensures r.Ok? ==> |r.value| == |vs| && forall i :: 0 <= i < |vs| ==> decode(vs[i].fields) == Ok(r.value[i])
  {
    if |vs| == 0 then Ok([])
    else if !vs[0].DictVal? then Err(NotARecord)
    else
      var first :- decode(vs[0].fields);
      var rest :- DecodeAll(vs[1..], decode);
      Ok([first] + rest)
  }

  function EncodeAll<T>(xs: seq<T>, encode: T -> Dict): (vs: seq<Value>)
    ensures |vs| == |xs| && forall i :: 0 <= i < |xs| ==> vs[i] == DictVal(encode(xs[i]))
  {
    seq(|xs|, i requires 0 <= i < |xs| => DictVal(encode(xs[i])))
  }

  /** A list survives saving and reloading whenever each element does. */
  lemma DecodeEncodeAll<T>(xs: seq<T>, encode: T -> Dict, decode: Dict -> Result<T, RecordError>)
    requires forall x :: decode(encode(x)) == Ok(x)
    ensures DecodeAll(EncodeAll(xs, encode), decode) == Ok(xs)
  {
    var r := DecodeAll(EncodeAll(xs, encode), decode);
    assert r.Ok?;
    assert r.value == xs;
  }

  // ---------- Bill ----------

  /** The keyword arguments `Bill(**data)` accepts. */
  const BillFields: set<string> := {"id", "amount", "description", "date", "status"}

  function BillToDict(b: Bill): (d: Dict)
    ensures d.Keys == BillFields
  {
    map["id" := IntVal(b.id), "amount" := RealVal(b.amount), "description" := StrVal(b.description),
        "date" := StrVal(b.date), "status" := StrVal(b.status)]
  }

  /** `Bill.from_dict`, that is `Bill(**data)`: an unknown key or a missing
      required field is an error, and status defaults to "Pending". */
  function BillFromDict(d: Dict): (r: Result<Bill, RecordError>)
    ensures !(d.Keys <= BillFields) ==> r == Err(UnexpectedFields(d.Keys - BillFields))
    ensures (forall k :: k in ["id", "amount", "description", "date"] ==> k in d) || r.Err?
    ensures r.Ok? && "status" !in d ==> r.value.status == Pending
    ensures r.Ok? <==>
      && d.Keys <= BillFields && HasInt(d, "id") && HasNumber(d, "amount")
      && HasStr(d, "description") && HasStr(d, "date") && StrIfPresent(d, "status")
    ensures r.Ok? ==> r.value == Bill(d["id"].i, NumberOf(d["amount"]), d["description"].s, d["date"].s,
      if "status" in d then d["status"].s else Pending)
  {
    if !(d.Keys <= BillFields) then Err(UnexpectedFields(d.Keys - BillFields))
    else
      var id :- GetInt(d, "id");
      var amount :- GetNumber(d, "amount");
      var description :- GetStr(d, "description");
      var date :- GetStr(d, "date");
      var status :- GetStrOr(d, "status", Pending);
      Ok(Bill(id, amount, description, date, status))
  }

  lemma BillRoundTrip(b: Bill)
    ensures BillFromDict(BillToDict(b)) == Ok(b)
  {
  }

  // ---------- Prescription ----------

  const PrescriptionFields: set<string> := {"id", "medicine", "description", "date", "image_base64"}

  function PrescriptionToDict(p: Prescription): (d: Dict)
    ensures d.Keys == PrescriptionFields
  {
    map["id" := IntVal(p.id), "medicine" := StrVal(p.medicine), "description" := StrVal(p.description),
        "date" := StrVal(p.date), "image_base64" := StrVal(p.image)]
  }

  /** `Prescription.from_dict`, that is `Prescription(**data)`: an unknown
      key or a missing required field is an error, and the image defaults to
      empty. */
  function PrescriptionFromDict(d: Dict): (r: Result<Prescription, RecordError>)
    ensures !(d.Keys <= PrescriptionFields) ==> r == Err(UnexpectedFields(d.Keys - PrescriptionFields))
    ensures (forall k :: k in ["id", "medicine", "description", "date"] ==> k in d) || r.Err?
    ensures r.Ok? && "image_base64" !in d ==> r.value.image == ""
    ensures r.Ok? <==>
      && d.Keys <= PrescriptionFields && HasInt(d, "id") && HasStr(d, "medicine")
      && HasStr(d, "description") && HasStr(d, "date") && StrIfPresent(d, "image_base64")
    ensures r.Ok? ==> r.value == Prescription(d["id"].i, d["medicine"].s, d["description"].s, d["date"].s,
      if "image_base64" in d then d["image_base64"].s else "")
  {
    if !(d.Keys <= PrescriptionFields) then Err(UnexpectedFields(d.Keys - PrescriptionFields))
    else
      var id :- GetInt(d, "id");
      var medicine :- GetStr(d, "medicine");
      var description :- GetStr(d, "description");
      var date :- GetStr(d, "date");
      var image :- GetStrOr(d, "image_base64", "");
      Ok(Prescription(id, medicine, description, date, image))
  }

  lemma PrescriptionRoundTrip(p: Prescription)
    ensures PrescriptionFromDict(PrescriptionToDict(p)) == Ok(p)
  {
  }

  // ---------- Patient ----------

  /** A stored bills list is legacy when its first element is text. */
  predicate IsLegacyBills(vs: seq<Value>) {
    |vs| > 0 && vs[0].StrVal?
  }

  /** The keys `Patient.to_dict` writes. */
  const PatientFields: set<string> :=
    {"id", "name", "age", "ailment", "password", "reports", "bills", "prescriptions"}

  function PatientToDict(p: Patient): (d: Dict)
    ensures d.Keys == PatientFields
  {
    map["id" := IntVal(p.id), "name" := StrVal(p.name), "age" := IntVal(p.age),
        "ailment" := StrVal(p.ailment), "password" := StrVal(p.password),
        "reports" := ListVal(TextsToValues(p.reports)),
        "bills" := ListVal(EncodeAll(p.bills, BillToDict)),
        "prescriptions" := ListVal(EncodeAll(p.prescriptions, PrescriptionToDict))]
  }

  /** The bills of a stored patient: migrated when the list is legacy, read
      with `Bill.from_dict` element by element otherwise. */
  function ReadBills(vs: seq<Value>): (r: Result<seq<Bill>, RecordError>)
    ensures IsLegacyBills(vs) ==> (r.Ok? <==> forall i :: 0 <= i < |vs| ==> vs[i].StrVal?)
    ensures r.Ok? && IsLegacyBills(vs) ==>
      TextsFromValues(vs, "bills").Ok? && r.value == MigrateLegacyBills(TextsFromValues(vs, "bills").value)
    ensures !IsLegacyBills(vs) ==>
      (r.Ok? <==> forall i :: 0 <= i < |vs| ==> vs[i].DictVal? && BillFromDict(vs[i].fields).Ok?)
    ensures r.Ok? && !IsLegacyBills(vs) ==>
      |r.value| == |vs| && forall i :: 0 <= i < |vs| ==> vs[i].DictVal? && BillFromDict(vs[i].fields) == Ok(r.value[i])
  {
    if IsLegacyBills(vs) then
      var entries :- TextsFromValues(vs, "bills");
      Ok(MigrateLegacyBills(entries))
    else
      DecodeAll(vs, BillFromDict)
  }

  /** Every part of a stored patient reads: the five required fields have
      their kinds, and each list field present is a list whose elements
      read. */
  predicate PatientReadable(d: Dict) {
    && ListIfPresent(d, "bills") && ReadBills(StoredList(d, "bills")).Ok?
    && ListIfPresent(d, "prescriptions") && DecodeAll(StoredList(d, "prescriptions"), PrescriptionFromDict).Ok?
    && HasInt(d, "id") && HasStr(d, "name") && HasInt(d, "age") && HasStr(d, "ailment") && HasStr(d, "password")
    && ListIfPresent(d, "reports") && TextsFromValues(StoredList(d, "reports"), "reports").Ok?
  }

  /** `Patient.from_dict`: bills are migrated when the stored list is
      legacy and read with `Bill.from_dict` otherwise; prescriptions and
      reports default to empty; other keys are ignored. */
  function PatientFromDict(d: Dict): (r: Result<Patient, RecordError>)
    ensures r.Ok? <==> PatientReadable(d)
    ensures r.Ok? ==> r.value == Patient(d["id"].i, d["name"].s, d["age"].i, d["ailment"].s, d["password"].s,
      TextsFromValues(StoredList(d, "reports"), "reports").value, ReadBills(StoredList(d, "bills")).value,
      DecodeAll(StoredList(d, "prescriptions"), PrescriptionFromDict).value)
    ensures r.Ok? && IsLegacyBills(StoredList(d, "bills")) ==>
      TextsFromValues(StoredList(d, "bills"), "bills").Ok? &&
      r.value.bills == MigrateLegacyBills(TextsFromValues(StoredList(d, "bills"), "bills").value)
    ensures r.Ok? && !IsLegacyBills(StoredList(d, "bills")) ==>
      |r.value.bills| == |StoredList(d, "bills")| &&
      forall i :: 0 <= i < |StoredList(d, "bills")| ==>
        StoredList(d, "bills")[i].DictVal? && BillFromDict(StoredList(d, "bills")[i].fields) == Ok(r.value.bills[i])
    ensures r.Ok? ==> "id" in d && "name" in d && "age" in d && "ailment" in d && "password" in d
  {
    var billsData :- GetListOr(d, "bills");
    var bills :- ReadBills(billsData);
    var prescriptionsData :- GetListOr(d, "prescriptions");
    var prescriptions :- DecodeAll(prescriptionsData, PrescriptionFromDict);
    var id :- GetInt(d, "id");
    var name :- GetStr(d, "name");
    var age :- GetInt(d, "age");
    var ailment :- GetStr(d, "ailment");
    var password :- GetStr(d, "password");
    var reportsData :- GetListOr(d, "reports");
    var reports :- TextsFromValues(reportsData, "reports");
    Ok(Patient(id, name, age, ailment, password, reports, bills, prescriptions))
  }

  /** A record with only the five required fields reads as a patient with
      no reports, bills or prescriptions. */
  lemma PatientDefaults(d: Dict)
    requires HasInt(d, "id") && HasStr(d, "name") && HasInt(d, "age") && HasStr(d, "ailment") && HasStr(d, "password")
    requires "bills" !in d && "prescriptions" !in d && "reports" !in d
    ensures PatientFromDict(d) == Ok(Patient(d["id"].i, d["name"].s, d["age"].i, d["ailment"].s, d["password"].s, [], [], []))
  {
    assert StoredList(d, "bills") == [] && StoredList(d, "reports") == [];
  }

  /** Legacy bills never make a record unreadable: a record that reads
      without its bills reads with a non-empty list of bill texts as well,
      and gets the migrated bills. */
  lemma LegacyBillsMigrate(d: Dict, entries: seq<string>)
    requires |entries| > 0 && "bills" in d && d["bills"] == ListVal(TextsToValues(entries))
    requires PatientFromDict(d - {"bills"}).Ok?
    ensures PatientFromDict(d).Ok?
    ensures PatientFromDict(d) == Ok(PatientFromDict(d - {"bills"}).value.(bills := MigrateLegacyBills(entries)))
  {
    var rest := d - {"bills"};
    var vs := TextsToValues(entries);
    TextsRoundTrip(entries, "bills");
    assert IsLegacyBills(vs);
    assert ReadBills(vs) == Ok(MigrateLegacyBills(entries));
    assert StoredList(rest, "bills") == [];
    assert ReadBills([]) == Ok([]);
    assert StoredList(d, "prescriptions") == StoredList(rest, "prescriptions");
    assert StoredList(d, "reports") == StoredList(rest, "reports");
    assert PatientReadable(d);
  }

  /** Saving a patient never produces a legacy bills list, and reading the
      saved form gives the patient back. */
  lemma {:induction false} PatientRoundTrip(p: Patient)
    ensures !IsLegacyBills(StoredList(PatientToDict(p), "bills"))
    ensures PatientFromDict(PatientToDict(p)) == Ok(p)
  {
    forall b ensures BillFromDict(BillToDict(b)) == Ok(b) { BillRoundTrip(b); }
    forall x ensures PrescriptionFromDict(PrescriptionToDict(x)) == Ok(x) { PrescriptionRoundTrip(x); }
    DecodeEncodeAll(p.bills, BillToDict, BillFromDict);
    DecodeEncodeAll(p.prescriptions, PrescriptionToDict, PrescriptionFromDict);
    TextsRoundTrip(p.reports, "reports");
    var d := PatientToDict(p);
    assert StoredList(d, "bills") == EncodeAll(p.bills, BillToDict);
  }

  /** Loading normalises: after one read, saving and reading again gives the
      same patient, and the legacy branch is not taken a second time. */
  lemma PatientNormalForm(d: Dict)
    requires PatientFromDict(d).Ok?
    ensures !IsLegacyBills(StoredList(PatientToDict(PatientFromDict(d).value), "bills"))
    ensures PatientFromDict(PatientToDict(PatientFromDict(d).value)) == PatientFromDict(d)
  {
    PatientRoundTrip(PatientFromDict(d).value);
  }

  // ---------- Doctor ----------

  /** The keys `Doctor.to_dict` writes. */
  const DoctorFields: set<string> := {"id", "name", "specialization", "password"}

  function DoctorToDict(x: Doctor): (d: Dict)
    ensures d.Keys == DoctorFields
  {
    map["id" := IntVal(x.id), "name" := StrVal(x.name), "specialization" := StrVal(x.specialization),
        "password" := StrVal(x.password)]
  }

  /** `Doctor.from_dict`: the four fields are required, other keys ignored. */
  function DoctorFromDict(d: Dict): (r: Result<Doctor, RecordError>)
    ensures (forall k :: k in ["id", "name", "specialization", "password"] ==> k in d) || r.Err?
    ensures r.Ok? <==> HasInt(d, "id") && HasStr(d, "name") && HasStr(d, "specialization") && HasStr(d, "password")
    ensures r.Ok? ==> r.value == Doctor(d["id"].i, d["name"].s, d["specialization"].s, d["password"].s)
  {
    var id :- GetInt(d, "id");
    var name :- GetStr(d, "name");
    var specialization :- GetStr(d, "specialization");
    var password :- GetStr(d, "password");
    Ok(Doctor(id, name, specialization, password))
  }

  lemma DoctorRoundTrip(x: Doctor)
    ensures DoctorFromDict(DoctorToDict(x)) == Ok(x)
  {
  }

  // ---------- Appointment ----------

  /** The keys `Appointment.to_dict` writes. */
  const AppointmentFields: set<string> := {"id", "patient_id", "doctor_id", "date", "time"}

  function AppointmentToDict(a: Appointment): (d: Dict)
    ensures d.Keys == AppointmentFields
  {
    map["id" := IntVal(a.id), "patient_id" := IntVal(a.patientId), "doctor_id" := IntVal(a.doctorId),
        "date" := StrVal(a.date), "time" := StrVal(a.time)]
  }

  /** `Appointment.from_dict`: the five fields are required, other keys
      ignored. */
  function AppointmentFromDict(d: Dict): (r: Result<Appointment, RecordError>)
    ensures (forall k :: k in ["id", "patient_id", "doctor_id", "date", "time"] ==> k in d) || r.Err?
    ensures r.Ok? <==>
      HasInt(d, "id") && HasInt(d, "patient_id") && HasInt(d, "doctor_id") && HasStr(d, "date") && HasStr(d, "time")
    ensures r.Ok? ==> r.value == Appointment(d["id"].i, d["patient_id"].i, d["doctor_id"].i, d["date"].s, d["time"].s)
  {
    var id :- GetInt(d, "id");
    var patientId :- GetInt(d, "patient_id");
    var doctorId :- GetInt(d, "doctor_id");
    var date :- GetStr(d, "date");
    var time :- GetStr(d, "time");
    Ok(Appointment(id, patientId, doctorId, date, time))
  }

  lemma AppointmentRoundTrip(a: Appointment)
    ensures AppointmentFromDict(AppointmentToDict(a)) == Ok(a)
  {
  }

  // ---------- whole collections ----------

  /** `load_data` for the patients file, after JSON parsing: every element
      is read with `Patient.from_dict`; one bad record fails the load. */
  function LoadPatients(vs: seq<Value>): (r: Result<seq<Patient>, RecordError>)
    ensures r.Ok? <==> forall i :: 0 <= i < |vs| ==> vs[i].DictVal? && PatientFromDict(vs[i].fields).Ok?
    ensures r.Ok? ==> |r.value| == |vs| && forall i :: 0 <= i < |vs| ==> PatientFromDict(vs[i].fields) == Ok(r.value[i])
  {
    DecodeAll(vs, PatientFromDict)
  }

  /** `save_data` for the patients file, before JSON printing. */
  function SavePatients(ps: seq<Patient>): (vs: seq<Value>)
    ensures |vs| == |ps| && forall i :: 0 <= i < |ps| ==> vs[i] == DictVal(PatientToDict(ps[i]))
  {
    EncodeAll(ps, PatientToDict)
  }

  /** Saving then loading reproduces every patient, and a loaded collection
      is a fixed point of save-then-load. */
  lemma PatientsSaveLoad(ps: seq<Patient>, vs: seq<Value>)
    ensures LoadPatients(SavePatients(ps)) == Ok(ps)
    ensures LoadPatients(vs).Ok? ==> LoadPatients(SavePatients(LoadPatients(vs).value)) == LoadPatients(vs)
  {
    forall p ensures PatientFromDict(PatientToDict(p)) == Ok(p) { PatientRoundTrip(p); }
    DecodeEncodeAll(ps, PatientToDict, PatientFromDict);
    if LoadPatients(vs).Ok? {
      DecodeEncodeAll(LoadPatients(vs).value, PatientToDict, PatientFromDict);
    }
  }

  function LoadDoctors(vs: seq<Value>): (r: Result<seq<Doctor>, RecordError>)
    ensures r.Ok? <==> forall i :: 0 <= i < |vs| ==> vs[i].DictVal? && DoctorFromDict(vs[i].fields).Ok?
    ensures r.Ok? ==> |r.value| == |vs| && forall i :: 0 <= i < |vs| ==> DoctorFromDict(vs[i].fields) == Ok(r.value[i])
  {
    DecodeAll(vs, DoctorFromDict)
  }

  function SaveDoctors(ds: seq<Doctor>): (vs: seq<Value>)
    ensures |vs| == |ds| && forall i :: 0 <= i < |ds| ==> vs[i] == DictVal(DoctorToDict(ds[i]))
  {
    EncodeAll(ds, DoctorToDict)
  }

  lemma DoctorsSaveLoad(ds: seq<Doctor>)
    ensures LoadDoctors(SaveDoctors(ds)) == Ok(ds)
  {
    forall x ensures DoctorFromDict(DoctorToDict(x)) == Ok(x) { DoctorRoundTrip(x); }
    DecodeEncodeAll(ds, DoctorToDict, DoctorFromDict);
  }

  function LoadAppointments(vs: seq<Value>): (r: Result<seq<Appointment>, RecordError>)
    ensures r.Ok? <==> forall i :: 0 <= i < |vs| ==> vs[i].DictVal? && AppointmentFromDict(vs[i].fields).Ok?
    ensures r.Ok? ==> |r.value| == |vs| && forall i :: 0 <= i < |vs| ==> AppointmentFromDict(vs[i].fields) == Ok(r.value[i])
  {
    DecodeAll(vs, AppointmentFromDict)
  }

  function SaveAppointments(apps: seq<Appointment>): (vs: seq<Value>)
    ensures |vs| == |apps| && forall i :: 0 <= i < |apps| ==> vs[i] == DictVal(AppointmentToDict(apps[i]))
  {
    EncodeAll(apps, AppointmentToDict)
  }

  lemma AppointmentsSaveLoad(apps: seq<Appointment>)
    ensures LoadAppointments(SaveAppointments(apps)) == Ok(apps)
  {
    forall a ensures AppointmentFromDict(AppointmentToDict(a)) == Ok(a) { AppointmentRoundTrip(a); }
    DecodeEncodeAll(apps, AppointmentToDict, AppointmentFromDict);
  }
}

=== FILE: ids.dfy ===
/** Identity generation: `get_next_id` and the uniqueness it maintains. */
module Ids {

  /** The largest id of a non-empty collection (pandas' `Series.max()`). */
  function MaxId(ids: seq<int>): (m: int)
    requires |ids| > 0
    ensures m in ids
    ensures forall i :: 0 <= i < |ids| ==> ids[i] <= m
  {
    if |ids| == 1 then ids[0]
    else
      var rest := MaxId(ids[1..]);
      if ids[0] >= rest then ids[0] else rest
  }

  /** `get_next_id`: 1 for an empty collection, otherwise the largest id
      plus one. */
  function NextId(ids: seq<int>): (n: int)
    ensures |ids| == 0 ==> n == 1
    ensures |ids| > 0 ==> n - 1 in ids
    ensures forall i :: 0 <= i < |ids| ==> ids[i] < n
  {
    if |ids| == 0 then 1 else MaxId(ids) + 1
  }

  /** No id occurs twice. */
  predicate Unique(ids: seq<int>) {
    forall i, j :: 0 <= i < j < |ids| ==> ids[i] != ids[j]
  }

  /** Appending the generated id keeps a collection's ids unique, and the
      new id is fresh. */
  lemma NextIdIsFresh(ids: seq<int>)
    ensures NextId(ids) !in ids
    ensures Unique(ids) ==> Unique(ids + [NextId(ids)])
  {
  }

  lemma NextIdExamples()
    ensures NextId([]) == 1
    ensures NextId([3, 7, 2]) == 8
  {
  }
}

=== FILE: legacy.dfy ===
/** Migration of legacy bills: old data stored a patient's bills as plain
    strings "<description> <amount>"; loading turns each into a structured
    pending bill. */
module Legacy {
  import opened Text
  import opened Numbers
  import opened Records
  import opened Ids

  /** The date every migrated bill is given. */
  const LegacyDate: string := "2025-01-01"

  /** One legacy entry read as (description, amount): split at the last
      space; when the tail is an amount token the stripped head is the
      description and the tail the amount, otherwise the whole entry is the
      description and the amount is zero. */
  function ParseLegacyEntry(entry: string): (r: (string, real))
    ensures r.1 >= 0.0
    ensures ' ' !in entry ==> r == (entry, 0.0)
    ensures Stripped(r.0) || r.0 == entry
  {
    var parts := RSplitOnce(entry, ' ');
    if |parts| == 2 && IsAmountToken(parts[1]) then
      (Strip(parts[0]), DecimalValue(parts[1]))
    else
      (entry, 0.0)
  }

  /** Two splits of one string at a separator that does not occur after
      the split point are the same split. */
  lemma SplitAtLastSeparator(a: string, b: string, c: string, d: string, sep: char)
    requires a + [sep] + b == c + [sep] + d
    requires sep !in b && sep !in d
    ensures a == c && b == d
  {
    var s := a + [sep] + b;
    assert s[|a|] == sep && s[|c|] == sep;
    assert |a| == |c|;
    assert a == s[..|a|];
    assert c == s[..|c|];
    assert b == s[|a| + 1..];
    assert d == s[|c| + 1..];
  }

  /** An entry written as a description, one space and an amount token
      reads back as the stripped description and the token's value. */
  lemma {:induction false} LegacyEntryWithAmount(head: string, tail: string)
    requires IsAmountToken(tail)
    ensures ParseLegacyEntry(head + " " + tail) == (Strip(head), DecimalValue(tail))
  {
    AmountTokenHasNoSpace(tail);
    var s := head + " " + tail;
    assert s[|head|] == ' ';
    var parts := RSplitOnce(s, ' ');
    assert s == head + [' '] + tail;
    SplitAtLastSeparator(parts[0], parts[1], head, tail, ' ');
  }

  /** An entry in which no space is followed by an amount token is kept
      whole as the description, with amount zero. */
  lemma {:induction false} LegacyEntryWithoutAmount(entry: string)
    requires forall k :: 0 <= k < |entry| && entry[k] == ' ' ==> !IsAmountToken(entry[k + 1..])
    ensures ParseLegacyEntry(entry) == (entry, 0.0)
  {
    var parts := RSplitOnce(entry, ' ');
    if |parts| == 2 {
      var k := |parts[0]|;
      assert entry[k] == ' ';
      assert entry[k + 1..] == parts[1];
    }
  }

  lemma ExampleAmount(whole: string, fraction: string)
    requires whole == "1500" && fraction == "0"
    ensures IsAmountToken(whole + "." + fraction) && DecimalValue(whole + "." + fraction) == 1500.0
  {
    assert DigitsValue(whole[..1]) == 1;
    assert DigitsValue(whole[..2]) == 15 by { assert whole[..2][..1] == whole[..1]; }
    assert DigitsValue(whole[..3]) == 150 by { assert whole[..3][..2] == whole[..2]; }
    assert DigitsValue(whole) == 1500 by { assert whole[..3] == whole[..|whole| - 1]; }
    assert DigitsValue(fraction) == 0;
    DecimalValueOfParts(whole, fraction);
  }

  lemma ExampleDescription(head: string)
    requires head == "Consultation Fee"
    ensures Strip(head) == head
  {
    assert Stripped(head);
    StripOfStripped(head);
  }

  /** "Consultation Fee 1500.0" becomes a 1500 bill for "Consultation Fee". */
  lemma LegacyEntryExampleWithAmount(head: string, tail: string)
    requires head == "Consultation Fee" && tail == "1500.0"
    ensures ParseLegacyEntry(head + " " + tail) == ("Consultation Fee", 1500.0)
  {
    assert tail == "1500" + "." + "0";
    ExampleAmount("1500", "0");
    ExampleDescription(head);
    LegacyEntryWithAmount(head, tail);
  }

  /** "Checkup" has no amount and is kept whole. */
  lemma LegacyEntryExampleWithoutAmount(entry: string)
    requires entry == "Checkup"
    ensures ParseLegacyEntry(entry) == ("Checkup", 0.0)
  {
    assert forall i :: 0 <= i < |entry| ==> entry[i] != ' ';
  }

  /** The bill a legacy entry becomes, given its 1-based position. */
  function LegacyBill(id: int, entry: string): (b: Bill)
    ensures b.id == id && b.date == LegacyDate && b.status == Pending
    ensures b.amount >= 0.0
    ensures (b.description, b.amount) == ParseLegacyEntry(entry)
  {
    var (description, amount) := ParseLegacyEntry(entry);
    Bill(id, amount, description, LegacyDate, Pending)
  }

  /** Migration of `entries`, numbering them from `first`. */
  function MigrateFrom(entries: seq<string>, first: int): (r: seq<Bill>)
    ensures |r| == |entries|
    ensures forall i :: 0 <= i < |r| ==> r[i] == LegacyBill(first + i, entries[i])
  {
    if |entries| == 0 then []
    else [LegacyBill(first, entries[0])] + MigrateFrom(entries[1..], first + 1)
  }

  /** The legacy branch of `Patient.from_dict`: one pending bill per
      entry, in order, numbered 1, 2, ... and dated 2025-01-01. */
  function MigrateLegacyBills(entries: seq<string>): (r: seq<Bill>)
    ensures |r| == |entries|
    ensures forall i :: 0 <= i < |r| ==>
      && r[i].id == i + 1
      && r[i].date == LegacyDate
      && r[i].status == Pending
      && (r[i].description, r[i].amount) == ParseLegacyEntry(entries[i])
  {
    MigrateFrom(entries, 1)
  }

  /** Migrated bills have distinct ids, and the next bill added to them
      gets the id after the last entry. */
  lemma MigratedIds(entries: seq<string>)
    ensures Unique(BillIds(MigrateLegacyBills(entries)))
    ensures NextId(BillIds(MigrateLegacyBills(entries))) == |entries| + 1
  {
    var ids := BillIds(MigrateLegacyBills(entries));
    if |entries| > 0 {
      assert ids[|entries| - 1] == |entries|;
    }
  }
}

=== FILE: lists.dfy ===
/** Sequence operations that replace the DataFrame masks of the store:
    first match (`df[mask].iloc[0]`, `index[0]`, `next(...)`) and filtering
    (list comprehensions with a condition). */
module Lists {
  import opened Wrappers

  /** `i` is the position of the first element satisfying `p`. */
  ghost predicate IsFirst<T>(s: seq<T>, p: T -> bool, i: int) {
    0 <= i < |s| && p(s[i]) && forall j :: 0 <= j < i ==> !p(s[j])
  }

  /** The position of the first element satisfying `p`, if any. */
  function FindFirst<T>(s: seq<T>, p: T -> bool): (r: Option<nat>)
    ensures r.Some? ==> IsFirst(s, p, r.value)
    ensures r.None? <==> forall j :: 0 <= j < |s| ==> !p(s[j])
  {
    if |s| == 0 then None
    else if p(s[0]) then Some(0)
    else match FindFirst(s[1..], p)
      case None => None
      case Some(i) => Some(i + 1)
  }

  /** The elements satisfying `keep`, in their original order. */
  function Filter<T>(s: seq<T>, keep: T -> bool): (r: seq<T>)
    ensures |r| <= |s|
    ensures forall i :: 0 <= i < |r| ==> r[i] in s && keep(r[i])
    ensures forall i :: 0 <= i < |s| && keep(s[i]) ==> s[i] in r
  {
    if |s| == 0 then []
    else if keep(s[0]) then [s[0]] + Filter(s[1..], keep)
    else Filter(s[1..], keep)
  }

  /** Filtering works piecewise, so kept elements keep their relative
      order. */
  lemma {:induction false} FilterAppend<T>(a: seq<T>, b: seq<T>, keep: T -> bool)
    ensures Filter(a + b, keep) == Filter(a, keep) + Filter(b, keep)
  {
    if |a| == 0 {
      assert a + b == b;
    } else {
      assert (a + b)[1..] == a[1..] + b;
      FilterAppend(a[1..], b, keep);
    }
  }

  /** Filtering keeps everything when every element passes, and the
      filtered list always passes. */
  lemma {:induction false} FilterKeepsAll<T>(s: seq<T>, keep: T -> bool)
    ensures (forall i :: 0 <= i < |s| ==> keep(s[i])) ==> Filter(s, keep) == s
    ensures Filter(Filter(s, keep), keep) == Filter(s, keep)
  {
    if |s| > 0 {
      FilterKeepsAll(s[1..], keep);
      if keep(s[0]) {
        assert Filter(s, keep)[1..] == Filter(s[1..], keep);
      }
    }
  }

  /** No two elements of `s` have the same key. */
  ghost predicate DistinctKeys<T>(s: seq<T>, key: T -> int) {
    forall i, j :: 0 <= i < j < |s| ==> key(s[i]) != key(s[j])
  }

  /** Filtering cannot make two keys collide. */
  lemma {:induction false} FilterKeepsDistinct<T>(s: seq<T>, keep: T -> bool, key: T -> int)
    requires DistinctKeys(s, key)
    ensures DistinctKeys(Filter(s, keep), key)
  {
    if |s| > 0 {
      var rest := s[1..];
      assert DistinctKeys(rest, key) by {
        forall i, j | 0 <= i < j < |rest| ensures key(rest[i]) != key(rest[j]) {
          assert rest[i] == s[i + 1] && rest[j] == s[j + 1];
        }
      }
      FilterKeepsDistinct(rest, keep, key);
      if keep(s[0]) {
        var tail := Filter(rest, keep);
        var r := [s[0]] + tail;
        forall j | 0 < j < |r| ensures key(r[j]) != key(s[0]) {
          var m :| 0 <= m < |rest| && rest[m] == r[j];
          assert rest[m] == s[m + 1];
        }
        forall i, j | 0 < i < j < |r| ensures key(r[i]) != key(r[j]) {
          assert r[i] == tail[i - 1] && r[j] == tail[j - 1];
        }
      }
    }
  }
}

=== FILE: numbers.dfy ===
/** Decimal text and numbers: ASCII `isdigit`, `str(int)`, `int(text)`,
    `float(text)` for plain decimal literals, and the amount token of a
    legacy bill. */
module Numbers {
  import opened Wrappers
  import opened Text

  predicate IsDigit(c: char) {
    '0' <= c <= '9'
  }

  /** Python's `str.isdigit()` over ASCII digits: non-empty and every
      character a digit. */
  predicate IsDigits(s: string) {
    |s| > 0 && forall i :: 0 <= i < |s| ==> IsDigit(s[i])
  }

  predicate DigitsOnly(s: string) {
    forall i :: 0 <= i < |s| ==> IsDigit(s[i])
  }

  function DigitValue(c: char): nat
    requires IsDigit(c)
  {
    c as int - '0' as int
  }

  function DigitChar(d: nat): (c: char)
    requires d < 10
    ensures IsDigit(c) && DigitValue(c) == d
  {
    ('0' as int + d) as char
  }

  function Pow10(k: nat): (p: nat)
    ensures p >= 1
  {
    if k == 0 then 1 else 10 * Pow10(k - 1)
  }

  /** The value of a run of decimal digits, most significant first. */
  function DigitsValue(s: string): (n: nat)
    requires DigitsOnly(s)
    ensures n < Pow10(|s|)
  {
    if |s| == 0 then 0
    else DigitsValue(s[..|s| - 1]) * 10 + DigitValue(s[|s| - 1])
  }

  /** Python's `str(n)` for a non-negative integer. */
  function NatToString(n: nat): (s: string)
    ensures IsDigits(s)
    ensures DigitsValue(s) == n
    ensures s[0] == '0' ==> s == "0"
  {
    if n < 10 then [DigitChar(n)]
    else
      var front := NatToString(n / 10);
      var s := front + [DigitChar(n % 10)];
      assert s[..|s| - 1] == front;
      s
  }

  /** Python's `str(i)`: decimal digits, preceded by '-' when negative. */
  function IntToString(i: int): (s: string)
    ensures |s| > 0
    ensures i >= 0 ==> IsDigits(s) && DigitsValue(s) == i
    ensures i < 0 ==> s[0] == '-' && IsDigits(s[1..]) && DigitsValue(s[1..]) == -i
    ensures s[if i < 0 then 1 else 0] == '0' ==> s == "0"
  {
    if i < 0 then "-" + NatToString(-i) else NatToString(i)
  }

  /** The text of an integer has no surrounding whitespace and no
      upper-case letters. */
  lemma IntTextIsCanonical(i: int)
    ensures Stripped(IntToString(i))
    ensures Lower(IntToString(i)) == IntToString(i)
  {
    var s := IntToString(i);
    forall k | 0 <= k < |s| ensures !IsSpace(s[k]) && LowerChar(s[k]) == s[k] {
      if i < 0 && k > 0 { assert s[k] == s[1..][k - 1]; }
      SignOrDigitIsPlain(s[k]);
    }
  }

  /** A sign, a dot or a digit is neither whitespace nor changed by
      `lower()`. */
  lemma SignOrDigitIsPlain(c: char)
    requires c == '-' || c == '+' || c == '.' || IsDigit(c)
    ensures !IsSpace(c) && LowerChar(c) == c
  {
  }

  /** What may precede the digits of a number: nothing, '+' or '-'. */
  predicate IsSign(sign: string) {
    sign == "" || sign == "+" || sign == "-"
  }

  /** An optional leading '+' or '-', split from the text after it. */
  function SplitSign(t: string): (r: (bool, string))
    ensures r.0 ==> t == "-" + r.1
    ensures !r.0 ==> t == r.1 || t == "+" + r.1
  {
    if |t| > 0 && t[0] == '-' then (true, t[1..])
    else if |t| > 0 && t[0] == '+' then (false, t[1..])
    else (false, t)
  }

  /** The sign `SplitSign` takes off the front of `t`. */
  function SignPart(t: string): (sign: string)
    ensures IsSign(sign) && t == sign + SplitSign(t).1
    ensures SplitSign(t).0 <==> sign == "-"
  {
    if SplitSign(t).0 then "-" else if t == SplitSign(t).1 then "" else "+"
  }

  /** Concatenation regroups freely. */
  lemma JoinMiddle<T>(a: seq<T>, m: seq<T>, b: seq<T>, c: seq<T>, d: seq<T>)
    requires m == b + c
    ensures a + m + d == a + b + c + d
  {
  }

  /** Every text is its stripped form with whitespace around it. */
  lemma StripPadding(text: string)
    ensures exists front, back ::
      && text == front + Strip(text) + back
      && AllSpace(front) && AllSpace(back)
  {
    var lo := SkipSpace(text, 0);
    var hi := SkipSpaceBack(text, lo, |text|);
    var front, back := text[..lo], text[hi..];
    assert AllSpace(front) by {
      forall k | 0 <= k < |front| ensures IsSpace(front[k]) { assert front[k] == text[k]; }
    }
    assert AllSpace(back) by {
      forall k | 0 <= k < |back| ensures IsSpace(back[k]) { assert back[k] == text[hi + k]; }
    }
    assert text == front + text[lo..hi] + back;
  }

  /** Every text is whitespace, the sign `SplitSign` finds after stripping,
      the rest of the stripped text, and whitespace. */
  lemma PaddedSign(text: string)
    ensures exists front, sign, back ::
      && text == front + sign + SplitSign(Strip(text)).1 + back
      && AllSpace(front) && AllSpace(back) && IsSign(sign) && (SplitSign(Strip(text)).0 <==> sign == "-")
  {
    var t := Strip(text);
    StripPadding(text);
    var front, back :| text == front + t + back && AllSpace(front) && AllSpace(back);
    JoinMiddle(front, t, SignPart(t), SplitSign(t).1, back);
  }

  /** The value of a digit run after a sign. */
  function SignedValue(sign: string, digits: string): int
    requires DigitsOnly(digits)
  {
    if sign == "-" then -(DigitsValue(digits) as int) else DigitsValue(digits)
  }

  /** Python's `int(text)` for decimal text: surrounding whitespace is
      ignored, an optional sign, then at least one digit. */
  function ParseInt(text: string): Option<int> {
    var (negative, body) := SplitSign(Strip(text));
    if IsDigits(body) then
      var n: int := DigitsValue(body);
      Some(if negative then -n else n)
    else
      None
  }

  /** Whatever `int()` accepts is whitespace, a sign, a digit run and
      whitespace, and reads as the signed value of the digits. */
  lemma ParseIntSound(text: string)
    requires ParseInt(text).Some?
    ensures exists front, sign, digits, back ::
      && text == front + sign + digits + back
      && AllSpace(front) && AllSpace(back) && IsSign(sign) && IsDigits(digits)
      && ParseInt(text).value == SignedValue(sign, digits)
  {
    PaddedSign(text);
  }

  /** A sign followed by text that starts and ends with a digit or a dot
      is unchanged by stripping, and `SplitSign` takes exactly that sign
      off. */
  lemma SignedCore(sign: string, body: string)
    requires IsSign(sign) && |body| > 0
    requires IsDigit(body[0]) || body[0] == '.'
    requires IsDigit(body[|body| - 1]) || body[|body| - 1] == '.'
    ensures Stripped(sign + body)
    ensures SplitSign(sign + body) == (sign == "-", body)
  {
    var core := sign + body;
    assert core[|core| - 1] == body[|body| - 1];
    SignOrDigitIsPlain(core[0]);
    SignOrDigitIsPlain(core[|core| - 1]);
    if sign == "" {
      assert core == body;
      assert body[0] != '-' && body[0] != '+';
    } else {
      assert core[1..] == body;
    }
  }

  /** A signed digit run with any whitespace around it reads as its value. */
  lemma ParseIntOfLiteral(front: string, sign: string, digits: string, back: string)
    requires AllSpace(front) && AllSpace(back) && IsSign(sign) && IsDigits(digits)
    ensures ParseInt(front + sign + digits + back) == Some(SignedValue(sign, digits))
  {
    var core := sign + digits;
    SignedCore(sign, digits);
    StripUnique(front, core, back);
    JoinMiddle(front, core, sign, digits, back);
    ParseIntOfSplit(front + sign + digits + back, sign, digits);
  }

  lemma ParseIntOfSplit(text: string, sign: string, digits: string)
    requires SplitSign(Strip(text)) == (sign == "-", digits) && IsDigits(digits)
    ensures ParseInt(text) == Some(SignedValue(sign, digits))
  {
  }

  /** A bare run of digits reads as its value. */
  lemma ParseIntOfDigits(text: string)
    requires IsDigits(text)
    ensures ParseInt(text) == Some(DigitsValue(text))
  {
    StripOfStripped(text);
  }

  /** Text without a single digit is never an integer. */
  lemma ParseIntNeedsDigit(text: string)
    requires forall i :: 0 <= i < |text| ==> !IsDigit(text[i])
    ensures ParseInt(text).None?
  {
    StripKeepsChars(text);
  }

  /** Text of an integer, with any surrounding whitespace, reads back as
      that integer. */
  lemma ParseIntRoundTrip(i: int, front: string, back: string)
    requires AllSpace(front) && AllSpace(back)
    ensures ParseInt(front + IntToString(i) + back) == Some(i)
  {
    var s := IntToString(i);
    IntTextIsCanonical(i);
    StripUnique(front, s, back);
    if i < 0 {
      assert SplitSign(s) == (true, s[1..]);
    } else {
      assert SplitSign(s) == (false, s);
    }
  }

  /** The trailing token of a legacy bill counts as an amount when removing
      its first '.' leaves a non-empty run of digits. */
  predicate IsAmountToken(t: string) {
    IsDigits(RemoveFirst(t, '.'))
  }

  lemma AmountTokenHasNoSpace(t: string)
    requires IsAmountToken(t)
    ensures ' ' !in t
  {
    if ' ' in t {
      var i :| 0 <= i < |RemoveFirst(t, '.')| && RemoveFirst(t, '.')[i] == ' ';
    }
  }

  /** Both parts of a digit run are digit runs. */
  lemma DigitsOnlyParts(a: string, b: string)
    requires DigitsOnly(a + b)
    ensures DigitsOnly(a) && DigitsOnly(b)
  {
    forall i | 0 <= i < |a| ensures IsDigit(a[i]) {
      assert a[i] == (a + b)[i];
    }
    forall i | 0 <= i < |b| ensures IsDigit(b[i]) {
      assert b[i] == (a + b)[|a| + i];
    }
  }

  /** The value of `digits` digits after a decimal point whose digit run
      reads as `n`. */
  function Fraction(n: nat, digits: nat): (f: real)
    ensures f >= 0.0
  {
    var p := Pow10(digits) as real;
    assert p > 0.0;
    n as real / p
  }

  /** Python's `float(t)` for an amount token: the digits before the dot
      are the whole part, the digits after it the fraction. */
  function DecimalValue(t: string): (v: real)
    requires IsAmountToken(t)
    ensures v >= 0.0
    ensures '.' !in t ==> v == DigitsValue(t) as real
  {
    match IndexOf(t, '.')
    case None => DigitsValue(t) as real
    case Some(k) =>
      var whole, fraction := t[..k], t[k + 1..];
      assert RemoveFirst(t, '.') == whole + fraction;
      DigitsOnlyParts(whole, fraction);
      DigitsValue(whole) as real + Fraction(DigitsValue(fraction), |fraction|)
  }

  /** The decimal text of a natural number is an amount token whose value
      is that number. */
  lemma DecimalValueOfNat(n: nat)
    ensures IsAmountToken(NatToString(n))
    ensures DecimalValue(NatToString(n)) == n as real
  {
    var s := NatToString(n);
    forall i | 0 <= i < |s| ensures s[i] != '.' {
      assert IsDigit(s[i]);
    }
  }

  /** The first dot of digits, a dot and digits is the one between them. */
  lemma DotAfterWhole(whole: string, fraction: string)
    requires DigitsOnly(whole)
    ensures IndexOf(whole + "." + fraction, '.') == Some(|whole|)
  {
    var t := whole + "." + fraction;
    assert t[|whole|] == '.';
    forall i | 0 <= i < |whole| ensures t[i] != '.' {
      assert t[i] == whole[i];
    }
  }

  /** Digits, a dot and digits pass the amount test: removing the dot
      leaves the two digit runs joined. */
  lemma DottedDigitsAreAmount(whole: string, fraction: string)
    requires DigitsOnly(whole) && DigitsOnly(fraction) && |whole| + |fraction| > 0
    ensures RemoveFirst(whole + "." + fraction, '.') == whole + fraction
    ensures IsAmountToken(whole + "." + fraction)
  {
    var t := whole + "." + fraction;
    DotAfterWhole(whole, fraction);
    assert t[..|whole|] == whole && t[|whole| + 1..] == fraction;
    var digits := whole + fraction;
    forall i | 0 <= i < |digits| ensures IsDigit(digits[i]) {
      if i < |whole| { assert digits[i] == whole[i]; } else { assert digits[i] == fraction[i - |whole|]; }
    }
  }

  /** Digits, a dot and digits form an amount token worth the whole part
      plus the fraction scaled down by its number of digits. */
  lemma DecimalValueOfParts(whole: string, fraction: string)
    requires DigitsOnly(whole) && DigitsOnly(fraction) && |whole| + |fraction| > 0
    ensures IsAmountToken(whole + "." + fraction)
    ensures DecimalValue(whole + "." + fraction)
      == DigitsValue(whole) as real + DigitsValue(fraction) as real / Pow10(|fraction|) as real
  {
    var t := whole + "." + fraction;
    DotAfterWhole(whole, fraction);
    DottedDigitsAreAmount(whole, fraction);
    assert t[..|whole|] == whole && t[|whole| + 1..] == fraction;
  }

  /** An amount token is made of digits and at most one dot, and is not
      empty. */
  lemma AmountTokenIsPlain(t: string)
    requires IsAmountToken(t)
    ensures |t| > 0
    ensures forall i :: 0 <= i < |t| ==> IsDigit(t[i]) || t[i] == '.'
  {
    var digits := RemoveFirst(t, '.');
    forall i | 0 <= i < |t| ensures IsDigit(t[i]) || t[i] == '.' {
      assert t[i] in t;
      if t[i] != '.' {
        assert t[i] in digits;
        var j :| 0 <= j < |digits| && digits[j] == t[i];
      }
    }
  }

  /** The value of an amount token after a sign. */
  function SignedAmount(sign: string, token: string): real
    requires IsAmountToken(token)
  {
    if sign == "-" then -DecimalValue(token) else DecimalValue(token)
  }

  /** Python's `float(text)` for plain decimal literals: surrounding
      whitespace is ignored, an optional sign, then an amount token. */
  function ParseFloat(text: string): Option<real> {
    var (negative, body) := SplitSign(Strip(text));
    if IsAmountToken(body) then
      Some(if negative then -DecimalValue(body) else DecimalValue(body))
    else
      None
  }

  /** Whatever `float()` accepts is whitespace, a sign, an amount token and
      whitespace, and reads as the signed value of the token. */
  lemma ParseFloatSound(text: string)
    requires ParseFloat(text).Some?
    ensures exists front, sign, token, back ::
      && text == front + sign + token + back
      && AllSpace(front) && AllSpace(back) && IsSign(sign) && IsAmountToken(token)
      && ParseFloat(text).value == SignedAmount(sign, token)
  {
    PaddedSign(text);
  }

  /** A signed amount token with any whitespace around it reads as its
      value. */
  lemma ParseFloatOfLiteral(front: string, sign: string, token: string, back: string)
    requires AllSpace(front) && AllSpace(back) && IsSign(sign) && IsAmountToken(token)
    ensures ParseFloat(front + sign + token + back) == Some(SignedAmount(sign, token))
  {
    AmountTokenIsPlain(token);
    var core := sign + token;
    SignedCore(sign, token);
    StripUnique(front, core, back);
    JoinMiddle(front, core, sign, token, back);
    ParseFloatOfSplit(front + sign + token + back, sign, token);
  }

  lemma ParseFloatOfSplit(text: string, sign: string, token: string)
    requires SplitSign(Strip(text)) == (sign == "-", token) && IsAmountToken(token)
    ensures ParseFloat(text) == Some(SignedAmount(sign, token))
  {
  }

  /** Text without a single digit is never a number. */
  lemma ParseFloatNeedsDigit(text: string)
    requires forall i :: 0 <= i < |text| ==> !IsDigit(text[i])
    ensures ParseFloat(text).None?
  {
    var t := Strip(text);
    var body := SplitSign(t).1;
    StripKeepsChars(text);
    assert forall c :: c in body ==> c in t;
    var digits := RemoveFirst(body, '.');
    assert forall c :: c in digits ==> !IsDigit(c);
    assert |digits| == 0 || !IsDigit(digits[0]);
  }
}

=== FILE: records.dfy ===
/** The five record kinds of the hospital store, and the generic
    key/value form (`to_dict` output, JSON objects) they are saved as. */
module Records {

  const Pending: string := "Pending"
  const Paid: string := "Paid"

  /** A bill embedded in a patient. `status` is free text; the program
      writes only "Pending" and "Paid". */
  datatype Bill = Bill(id: int, amount: real, description: string, date: string, status: string)

  /** A prescription embedded in a patient; `image` is the base64 text of
      an attached image, empty when there is none. */
  datatype Prescription = Prescription(id: int, medicine: string, description: string, date: string, image: string)

  datatype Patient = Patient(
    id: int, name: string, age: int, ailment: string, password: string,
    reports: seq<string>, bills: seq<Bill>, prescriptions: seq<Prescription>)

  datatype Doctor = Doctor(id: int, name: string, specialization: string, password: string)

  /** An appointment; `patientId` and `doctorId` are not checked against
      the other collections. */
  datatype Appointment = Appointment(id: int, patientId: int, doctorId: int, date: string, time: string)

  /** A JSON value: what `json.load` produces and `to_dict` builds.
      `NullVal` and `BoolVal` are JSON `null`, `true` and `false`; no
      record field is read from them. */
  datatype Value =
    | NullVal
    | BoolVal(b: bool)
    | IntVal(i: int)
    | RealVal(r: real)
    | StrVal(s: string)
    | ListVal(items: seq<Value>)
    | DictVal(fields: map<string, Value>)

  type Dict = map<string, Value>

  function BillIds(bills: seq<Bill>): (ids: seq<int>)
    ensures |ids| == |bills|
    ensures forall i :: 0 <= i < |bills| ==> ids[i] == bills[i].id
  {
    seq(|bills|, i requires 0 <= i < |bills| => bills[i].id)
  }

  function PrescriptionIds(ps: seq<Prescription>): (ids: seq<int>)
    ensures |ids| == |ps|
    ensures forall i :: 0 <= i < |ps| ==> ids[i] == ps[i].id
  {
    seq(|ps|, i requires 0 <= i < |ps| => ps[i].id)
  }

  function PatientIds(ps: seq<Patient>): (ids: seq<int>)
    ensures |ids| == |ps|
    ensures forall i :: 0 <= i < |ps| ==> ids[i] == ps[i].id
  {
    seq(|ps|, i requires 0 <= i < |ps| => ps[i].id)
  }

  function AppointmentIds(apps: seq<Appointment>): (ids: seq<int>)
    ensures |ids| == |apps|
    ensures forall i :: 0 <= i < |apps| ==> ids[i] == apps[i].id
  {
    seq(|apps|, i requires 0 <= i < |apps| => apps[i].id)
  }

  /** A form's date text, or today's date when it is left empty
      (`entry or datetime.now().strftime(...)`). */
  function DateOrToday(dateText: string, today: string): (date: string)
    ensures dateText != "" ==> date == dateText
    ensures dateText == "" ==> date == today
  {
    if dateText == "" then today else dateText
  }

  /** Selectors for the id masks the store uses (`df['id'] == id`). */
  function PatientWithId(id: int): Patient -> bool {
    (p: Patient) => p.id == id
  }

  function BillWithId(id: int): Bill -> bool {
    (b: Bill) => b.id == id
  }

  function PrescriptionWithId(id: int): Prescription -> bool {
    (p: Prescription) => p.id == id
  }
}

=== FILE: text.dfy ===
/** The Python string operations the record keeper relies on: `strip()`,
    ASCII `lower()`, substring containment (`in` / `str.contains` with a
    literal pattern), `rsplit(sep, 1)` and `replace(c, '', 1)`. */
module Text {
  import opened Wrappers

  /** Python's `str.isspace` for one character: the ASCII whitespace and
      separator controls, NEL, NO-BREAK SPACE and the Unicode space
      separators. */
  predicate IsSpace(c: char) {
    || c == ' '
    || ('\t' <= c <= '\r')
    || ('\U{1C}' <= c <= '\U{1F}')
    || c == '\U{85}' || c == '\U{A0}' || c == '\U{1680}'
    || ('\U{2000}' <= c <= '\U{200A}')
    || c == '\U{2028}' || c == '\U{2029}' || c == '\U{202F}'
    || c == '\U{205F}' || c == '\U{3000}'
  }

  predicate AllSpace(s: string) {
    forall i :: 0 <= i < |s| ==> IsSpace(s[i])
  }

  /** No whitespace at either end: the shape `strip()` produces. */
  predicate Stripped(s: string) {
    |s| == 0 || (!IsSpace(s[0]) && !IsSpace(s[|s| - 1]))
  }

  /** The index of the first character at or after `i` that is not
      whitespace, or `|s|` when there is none. */
  function SkipSpace(s: string, i: nat): (j: nat)
    requires i <= |s|
    ensures i <= j <= |s|
    ensures forall k :: i <= k < j ==> IsSpace(s[k])
    ensures j < |s| ==> !IsSpace(s[j])
    decreases |s| - i
  {
    if i < |s| && IsSpace(s[i]) then SkipSpace(s, i + 1) else i
  }

  /** The end of `s[lo..hi]` once its trailing whitespace is dropped. */
  function SkipSpaceBack(s: string, lo: nat, hi: nat): (j: nat)
    requires lo <= hi <= |s|
    ensures lo <= j <= hi
    ensures forall k :: j <= k < hi ==> IsSpace(s[k])
    ensures lo < j ==> !IsSpace(s[j - 1])
    decreases hi
  {
    if lo < hi && IsSpace(s[hi - 1]) then SkipSpaceBack(s, lo, hi - 1) else hi
  }

  /** Python's `str.strip()`: `s` with the whitespace run at each end removed. */
  function Strip(s: string): (r: string)
    ensures Stripped(r) && |r| <= |s|
  {
    var lo := SkipSpace(s, 0);
    s[lo..SkipSpaceBack(s, lo, |s|)]
  }

  /** What `strip()` returns sits between two whitespace runs of its input. */
  lemma StripDecomposes(s: string)
    ensures exists lo ::
      && 0 <= lo <= |s| - |Strip(s)|
      && s[lo..lo + |Strip(s)|] == Strip(s)
      && AllSpace(s[..lo]) && AllSpace(s[lo + |Strip(s)|..])
  {
    var lo := SkipSpace(s, 0);
    var hi := SkipSpaceBack(s, lo, |s|);
    assert s[lo..hi] == Strip(s);
    assert AllSpace(s[..lo]);
    assert AllSpace(s[hi..]);
  }

  /** Text made only of whitespace strips to nothing. */
  lemma StripAllSpace(s: string)
    requires AllSpace(s)
    ensures Strip(s) == []
  {
    assert SkipSpace(s, 0) == |s|;
  }

  /** `strip()` gives the empty text exactly for all-whitespace text. */
  lemma StripEmpty(s: string)
    ensures Strip(s) == [] <==> AllSpace(s)
  {
    if AllSpace(s) {
      StripAllSpace(s);
    } else {
      var lo := SkipSpace(s, 0);
      assert lo < |s|;
      assert lo < SkipSpaceBack(s, lo, |s|);
    }
  }

  /** `strip()` is determined by the decomposition: whatever whitespace
      surrounds a stripped core, stripping returns exactly that core. */
  lemma StripUnique(front: string, core: string, back: string)
    requires AllSpace(front) && AllSpace(back) && Stripped(core)
    ensures Strip(front + core + back) == core
  {
    var s := front + core + back;
    if |core| == 0 {
      assert s == front + back;
      StripAllSpace(s);
    } else {
      var lo := SkipSpace(s, 0);
      var end := |front| + |core|;
      assert s[..|front|] == front && s[|front|..end] == core && s[end..] == back;
      assert s[|front|] == core[0];
      assert lo == |front|;
      var hi := SkipSpaceBack(s, lo, |s|);
      assert s[end - 1] == core[|core| - 1];
      assert hi == end;
    }
  }

  /** Text with no whitespace at either end is left alone. */
  lemma StripOfStripped(t: string)
    requires Stripped(t)
    ensures Strip(t) == t
  {
    StripUnique([], t, []);
    assert [] + t + [] == t;
  }

  /** Every character `strip()` keeps comes from its input. */
  lemma StripKeepsChars(s: string)
    ensures forall c :: c in Strip(s) ==> c in s
  {
    var lo := SkipSpace(s, 0);
    var r := Strip(s);
    forall c | c in r ensures c in s {
      var i :| 0 <= i < |r| && r[i] == c;
      assert s[lo + i] == c;
    }
  }

  /** Text that starts with whitespace loses it when stripped. */
  lemma StripShortens(s: string)
    requires |s| > 0 && IsSpace(s[0])
    ensures |Strip(s)| < |s|
  {
    assert SkipSpace(s, 0) > 0;
  }

  /** Stripping twice is stripping once. */
  lemma StripIdempotent(s: string)
    ensures Strip(Strip(s)) == Strip(s)
  {
    StripOfStripped(Strip(s));
  }

  /** ASCII case folding of one character, as Python's `lower()` does for
      ASCII letters. */
  function LowerChar(c: char): char {
    if 'A' <= c <= 'Z' then (c as int + 32) as char else c
  }

  function Lower(s: string): (r: string)
    ensures |r| == |s|
    ensures forall i :: 0 <= i < |s| ==> r[i] == LowerChar(s[i])
  {
    seq(|s|, i requires 0 <= i < |s| => LowerChar(s[i]))
  }

  /** `q` occurs in `s` starting at index `i`. */
  ghost predicate OccursAt(s: string, q: string, i: int) {
    0 <= i && i + |q| <= |s| && s[i..i + |q|] == q
  }

  /** Python's `q in s` (and pandas' `str.contains` for a pattern with no
      regular-expression metacharacters): `q` occurs somewhere in `s`. */
  function Contains(s: string, q: string): (b: bool)
    ensures b <==> exists i :: OccursAt(s, q, i)
    decreases |s|
  {
    if |q| > |s| then false
    else if s[..|q|] == q then
      assert OccursAt(s, q, 0);
      true
    else
      ContainsShift(s, q);
      Contains(s[1..], q)
  }

  lemma ContainsShift(s: string, q: string)
    requires |q| <= |s| && s[..|q|] != q
    ensures (exists i :: OccursAt(s, q, i)) <==> (exists j :: OccursAt(s[1..], q, j))
  {
    if i :| OccursAt(s, q, i) {
      assert i != 0;
      assert s[1..][i - 1..i - 1 + |q|] == s[i..i + |q|];
      assert OccursAt(s[1..], q, i - 1);
    }
    if j :| OccursAt(s[1..], q, j) {
      assert s[1..][j..j + |q|] == s[j + 1..j + 1 + |q|];
      assert OccursAt(s, q, j + 1);
    }
  }

  lemma ContainsItself(s: string)
    ensures Contains(s, s)
  {
    assert OccursAt(s, s, 0) by { assert s[0..|s|] == s; }
  }

  /** Lower-casing keeps text free of whitespace at its ends. */
  lemma LowerKeepsStripped(s: string)
    requires Stripped(s)
    ensures Stripped(Lower(s))
  {
  }

  /** Index of the first occurrence of `c` in `s`. */
  function IndexOf(s: string, c: char): (r: Option<nat>)
    ensures r.None? <==> c !in s
    ensures r.Some? ==> r.value < |s| && s[r.value] == c && c !in s[..r.value]
  {
    if |s| == 0 then None
    else if s[0] == c then Some(0)
    else match IndexOf(s[1..], c)
      case None => None
      case Some(k) =>
        assert s[..k + 1] == [s[0]] + s[1..][..k];
        Some(k + 1)
  }

  /** Index of the last occurrence of `c` in `s`. */
  function LastIndexOf(s: string, c: char): (r: Option<nat>)
    ensures r.None? <==> c !in s
    ensures r.Some? ==> r.value < |s| && s[r.value] == c && c !in s[r.value + 1..]
  {
    if |s| == 0 then None
    else if s[|s| - 1] == c then Some(|s| - 1)
    else match LastIndexOf(s[..|s| - 1], c)
      case None =>
        assert s == s[..|s| - 1] + [s[|s| - 1]];
        None
      case Some(k) =>
        assert s[k + 1..] == s[..|s| - 1][k + 1..] + [s[|s| - 1]];
        Some(k)
  }

  /** Python's `s.rsplit(sep, 1)`: one part when `sep` does not occur,
      otherwise the text before and after the LAST occurrence of `sep`. */
  function RSplitOnce(s: string, sep: char): (parts: seq<string>)
    ensures 1 <= |parts| <= 2
    ensures |parts| == 1 <==> sep !in s
    ensures |parts| == 1 ==> parts[0] == s
    ensures |parts| == 2 ==> s == parts[0] + [sep] + parts[1] && sep !in parts[1]
  {
    match LastIndexOf(s, sep)
    case None => [s]
    case Some(k) =>
      assert s == s[..k] + [sep] + s[k + 1..];
      [s[..k], s[k + 1..]]
  }

  /** Python's `s.replace(c, '', 1)`: the first occurrence of `c` removed. */
  function RemoveFirst(s: string, c: char): (r: string)
    ensures c !in s ==> r == s
    ensures c in s ==> |r| == |s| - 1
    ensures c in s ==> exists k ::
      && 0 <= k < |s| && s[k] == c && c !in s[..k]
      && r == s[..k] + s[k + 1..]
    ensures forall x :: x in s ==> x in r || x == c
    ensures forall x :: x in r ==> x in s
  {
    match IndexOf(s, c)
    case None => s
    case Some(k) =>
      assert s == s[..k] + [c] + s[k + 1..];
      s[..k] + s[k + 1..]
  }
}

=== FILE: wrappers.dfy ===
/** Failure-compatible wrappers used throughout the model: an optional value
    and a result that carries either a value or a typed error. */
module Wrappers {

  datatype Option<+T> = None | Some(value: T) {
    predicate IsFailure() { None? }

    function PropagateFailure<U>(): Option<U>
      requires None?
    {
      None
    }

    function Extract(): T
      requires Some?
    {
      value
    }
  }

  datatype Result<+T, +E> = Ok(value: T) | Err(error: E) {
    predicate IsFailure() { Err? }

    function PropagateFailure<U>(): Result<U, E>
      requires Err?
    {
      Err(error)
    }

    function Extract(): T
      requires Ok?
    {
      value
    }
  }
}
